=== FILE: README.md ===
# chunker, modelled in Dafny

jstewmc/chunker reads a long text or a large file one chunk at a time. A
cursor (`Chunker`) holds a chunk size and a chunk index. `current()` returns
the chunk at offset `index * size`. `next()` and `previous()` move the index
by one and return the new chunk; at either end they return `false` and leave
the cursor where it is. There are two chunk sources:

- `Text` cuts a string into `size`-character pieces with `mb_substr`.
- `File` reads a raw byte window with `file_get_contents`. The read starts
  `MAX_SIZE_CHARACTER` (4) bytes before the chunk and is `size + 4` bytes
  long, so it is padded before the chunk but not after it. It then trims the
  window with `mb_strcut`, which is meant to keep a chunk from splitting a
  multi-byte character. As written, a chunk can still end inside a
  character, and bytes can be lost (see "## Findings").

The model fixes the encoding to UTF-8 (RFC 3629), the encoding the test
suite uses.

| file | module | what it holds |
|---|---|---|
| chunks.dfy | `Chunks` | results and errors, `validateOffset`, the `ceil(length / size)` chunk count, joining fetched pieces |
| utf8.dfy | `Utf8` | bytes (`uint8`), continuation bytes, cut points, the character-start search, well-formedness |
| mbstring.dfy | `MbString` | `mb_substr` and `mb_strcut` for UTF-8 |
| text.dfy | `TextChunking` | `Text::countChunks` and `Text::getChunk`; joining all chunks |
| file.dfy | `FileChunking` | `File::getChunk` as written and as documented; joining all chunks; the counterexamples |
| chunker.dfy | `Navigation` | the cursor: `current`, `next`, `previous`, `reset`, the `has*` queries, walking a source; with the corrected file fetch and with the library's |
| scenarios.dfy | `Scenarios` | the cases the test suite checks, on its own fixtures |

A cursor is an immutable value. `Next` and `Previous` return the moved
cursor together with the chunk. PHP's `false` is `NoChunk`. Each
`InvalidArgumentException` is a `Failure` carrying its cause.

The file fetch is modelled twice:

- `FileChunking.GetChunkAsWritten` is what `File::getChunk` does.
- `FileChunking.GetChunk` is the corrected cut. Its window is padded in both
  directions, as the comment at src/File.php:81 says. The start moves left to
  the first byte of its character. The end moves left to the first byte of
  the character that straddles it. The comment at src/File.php:127-128
  asks for this: a character that straddles the end is left out of the
  chunk. The diagram below that comment (src/File.php:132-134) instead
  widens a 10-byte chunk to 12 bytes. The corrected cut follows the
  wording, not the diagram.

The two differ (see Findings). The cursor is modelled with both:

- `Navigation.Fetch`, `Current`, `Next`, `Previous` and `Walk` use the
  corrected file fetch. They are the cursor the round-trip lemmas are about.
- `Navigation.FetchAsWritten`, `CurrentAsWritten` and `WalkAsWritten` use the
  library's file fetch, with the cursor's index, as `File::getChunk` does.

Lemmas say where the two agree and exhibit inputs where they do not. For
text the two are the same.

## Model

| member | source | states |
|---|---|---|
| Chunks.CountChunks | src/Text.php:18 | the count is 0 exactly for empty content, and count * size is the least multiple of size that covers the content |
| Chunks.ChunkIndexInRange | src/Chunker.php:107-110 | chunk i exists (i < count) exactly when it starts inside the content (i * size < length) |
| Chunks.ValidateOffset | src/Chunker.php:149-156 | a negative offset is rejected with NegativeOffset; any other offset passes unchanged |
| Chunks.JoinPiecesIsSuffix | src/Chunker.php:74-81 | when the piece fetched at each offset inside the content runs from start(offset) to start(offset + size), the pieces joined from an offset on are the content from start(offset): consecutive pieces neither overlap nor leave a gap |
| MbString.Substr | src/Text.php:26 | mb_substr returns min(length, rest) characters, and they are the ones that start at `start` |
| MbString.CutBounds | src/File.php:138-144 | mb_strcut keeps a range that starts at or before `from`, is at most `length` bytes long, and runs to the end of the string when start + length reaches it |
| MbString.CutBoundsAtCutPoints | src/File.php:117-134 | the start is the nearest cut point at or left of `from`, passing over continuation bytes only; the end, unless it is the end of the string, is the nearest cut point at or left of start + length |
| MbString.StrCut | src/File.php:138-144 | a start past the end gives ""; otherwise the kept bytes are the CutBounds range, at most `length` bytes |
| MbString.CutBoundsInWindow | src/File.php:136-145 | cutting a window of the file finds the same positions as the same search on the whole file, bounded by the window |
| TextChunking.CountChunks | src/Text.php:16-19 | zero chunks exactly for the empty text; count * size covers the text by less than one chunk |
| TextChunking.GetChunk | src/Text.php:21-30 | a negative offset fails; an offset at or past the end gives no chunk; otherwise a non-empty slice of the text from the offset, `size` characters long unless the text ends first |
| TextChunking.JoinFromIsSuffix | src/Text.php:25-27 | the chunks from an offset on, joined, are the text from that character on |
| TextChunking.RoundTrip | src/Text.php:21-30 | joining the chunks at indices 0 .. count - 1 gives back the text |
| FileChunking.CountChunks | src/File.php:23-26 | zero chunks exactly for the empty file; count * size covers the file by less than one chunk |
| FileChunking.Read | src/File.php:102-108 | a start past the end is modelled as a failed read, following the comment at src/File.php:90-91; otherwise the read gives min(length, rest) bytes from the start; a failed read and an empty read both lead to no chunk |
| FileChunking.WindowStart | src/File.php:106 | the window starts at offset - 4, or at 0 when that is negative |
| FileChunking.SingleByteChunk | src/File.php:99-109 | the raw window is at most size + 4 bytes, and it holds byte `offset` whenever the offset is inside the file |
| FileChunking.MultiByteChunk | src/File.php:136-145 | the trimmed chunk is at most `size` bytes |
| FileChunking.GetChunkAsWritten | src/File.php:33-45 | a negative offset fails; no chunk exactly when the raw read fails or is empty; otherwise a piece of at most `size` bytes |
| FileChunking.CutStartIsOffset | src/File.php:141 | the cut start `FileChunking.CutFrom`, that is `index === 0 ? 0 : 4`, lands on file byte `offset` exactly for the first chunk at offset 0, or for a later chunk at offset >= 4 |
| FileChunking.CutFromMatchesOffset | src/Chunker.php:61 | when the cursor fetches (offset = index * size, size >= 4), the cut start lands on file byte `offset` |
| FileChunking.AsWrittenInFile | src/File.php:136-145 | the library's chunk on the whole file: it starts at `offset` moved left (within the window) off continuation bytes; it ends at the window's end or at start + size moved left off continuation bytes |
| FileChunking.AsWrittenWindowEnd | src/File.php:106-107 | the raw window's end is either min(offset + size, filesize) or lies past offset + size |
| FileChunking.AsWrittenAgreesAtBoundaries | src/File.php:136-145 | when offset and min(offset + size, filesize) are character boundaries, the library's chunk equals the corrected one |
| FileChunking.SingleByteChunks | src/File.php:33-45 | on a file with only single-byte characters, both trims return exactly bytes [offset, min(offset + size, filesize)) |
| FileChunking.AsWrittenFirstChunkAgrees | src/File.php:140-141 | on well-formed UTF-8, the library's first chunk equals the corrected one |
| FileChunking.AsWrittenStartsAtCharStart | src/File.php:117-125 | on well-formed UTF-8, the library's chunk begins at the first byte of the character that holds `offset`, so it never begins with a continuation byte |
| FileChunking.AsWrittenSplitsCharacter | src/File.php:141 | on the well-formed file "aaaaaa€" with size 4, the library's second chunk ends inside "€" and is not UTF-8; the third chunk repeats those bytes; the joined chunks are 11 bytes, not the file; the corrected second chunk is "aa" |
| FileChunking.AsWrittenDropsBytes | src/File.php:136-145 | on the well-formed file "aaaaaa€bcdefgh" with size 4, the library's chunks are bytes [0,4), [4,8), [6,10) and [12,16): bytes 6-7 come twice, "cd" (bytes 10-11) never comes, and the join is as long as the file but is not the file; the corrected chunks join to the file |
| FileChunking.GetChunk | src/File.php:111-135 | corrected fetch: a negative offset fails; no chunk exactly when the window start is past the end |
| FileChunking.ChunkInFile | src/File.php:117-134 | inside the file, the corrected chunk is the non-empty range from the start of the character that holds `offset` to the start of the character that holds offset + size (or the end of the file) |
| FileChunking.ChunkSpan | src/File.php:117-134 | that range is non-empty and at most size + 3 bytes long; its end is the start of the next chunk or the end of the file; the range followed by the rest of the file is the file from its start |
| FileChunking.FetchPastEnd | src/File.php:39-42 | at or past the end of the file, the corrected fetch gives no chunk or an empty piece |
| FileChunking.JoinFromIsSuffix | src/File.php:111-135 | the corrected chunks from an offset on, joined, are the file from the first byte of the character that holds that offset (nothing past the end) |
| FileChunking.RoundTrip | src/File.php:111-135 | joining the corrected chunks at indices 0 .. count - 1 gives back the file byte for byte, whatever its content |
| FileChunking.ChunkWellFormed | src/File.php:112-115 | on a well-formed UTF-8 file, every corrected chunk is well-formed UTF-8 |
| Navigation.SetSize | src/Chunker.php:158-169 | a size below the source's minimum (`Navigation.MinSize`: 1 for text, 4 for a file) is rejected with SizeTooSmall(minimum); any other size is kept |
| Navigation.New | src/Chunker.php:37-42 | the constructor succeeds exactly for an accepted size; it then gives index 0, the given source and size, and a cursor that satisfies the invariant |
| Navigation.Count | src/Chunker.php:67 | zero chunks exactly for an empty source; count * size covers the source by less than one chunk |
| Navigation.Fetch | src/Chunker.php:147 | (corrected file fetch) a negative offset fails; inside the source the piece is the expected non-empty chunk; past the end, no chunk or an empty piece |
| Navigation.Current | src/Chunker.php:59-62 | (corrected file fetch) no chunk exactly when the source has no chunks; otherwise a non-empty piece |
| Navigation.CurrentIsFetch | src/Chunker.php:59-62 | (corrected file fetch) current() is what getChunk returns at offset index * size |
| Navigation.HasChunk | src/Chunker.php:97-100 | true exactly for a non-empty source no longer than one chunk |
| Navigation.HasChunks | src/Chunker.php:102-105 | true exactly for a non-empty source |
| Navigation.HasNextChunk | src/Chunker.php:107-110 | true exactly when the chunk after the current one starts inside the source |
| Navigation.HasPreviousChunk | src/Chunker.php:112-115 | true exactly when the index is at least 1 |
| Navigation.Next | src/Chunker.php:74-81 | (corrected file fetch) with a next chunk, the index goes up by one and the new chunk is returned; otherwise the cursor is unchanged and no chunk is returned; the invariant is kept |
| Navigation.Previous | src/Chunker.php:88-95 | (corrected file fetch) with a previous chunk, the index goes down by one and that chunk is returned; otherwise the cursor is unchanged and no chunk is returned; the invariant is kept |
| Navigation.Reset | src/Chunker.php:137-140 | index 0, same source and size, invariant kept, and current() is then the first chunk |
| Navigation.NextThenPrevious | src/Chunker.php:74-95 | a successful next() followed by previous() restores the cursor and returns the chunk it started on |
| Navigation.PreviousThenNext | src/Chunker.php:74-95 | a successful previous() followed by next() restores the cursor and returns the chunk it started on |
| Navigation.StuckAtEnds | src/Chunker.php:76-78 | at either end, repeating the move changes nothing and current() is unaffected |
| Navigation.Walk | src/Chunker.php:74-81 | (corrected file fetch) a walk lists the chunks met from the cursor on, starting with current() |
| Navigation.CurrentText | src/Text.php:25-27 | a text cursor's current chunk, followed by the text from the next offset, is the text from its own offset |
| Navigation.CurrentFile | src/File.php:117-134 | (corrected file fetch) a file cursor's current chunk, followed by the file from the next chunk's start, is the file from its own chunk start |
| Navigation.WalkText | src/Chunker.php:74-81 | walking a text cursor joins the text from its offset on |
| Navigation.WalkFile | src/Chunker.php:74-81 | (corrected file fetch) walking a file cursor joins the file from the character that holds its offset: nothing is lost or repeated |
| Navigation.WalkLength | src/Chunker.php:107-110 | (corrected file fetch) a walk has one chunk per index from the cursor's to the last, or the single no-chunk for an empty source |
| Navigation.WalkAt | src/Chunker.php:74-81 | (corrected file fetch) chunk k of a walk is current() of the cursor k places on, which satisfies the cursor invariant |
| Navigation.WalkRoundTrip | src/Chunker.php:59-81 | (corrected file fetch) walking a fresh cursor with current() and next() from the first chunk to the last, and joining the chunks, gives back the source |
| Navigation.FetchAsWritten | src/File.php:33-45 | (library file fetch) a negative offset fails; a file read that starts inside the file gives a piece; a piece is at most `size` long; for text it is Fetch; for a file whose chunk bounds are character boundaries and whose cut starts at the offset, it is Fetch |
| Navigation.CurrentAsWritten | src/Chunker.php:59-62 | (library file fetch) no chunk exactly when the source has no chunks; a chunk is at most `size` long |
| Navigation.CurrentAsWrittenIsFetch | src/Chunker.php:59-62 | (library file fetch) current() is what the library's getChunk returns at offset index * size with the cursor's index |
| Navigation.CurrentAsWrittenText | src/Text.php:21-30 | for text the library's current chunk is Current |
| Navigation.CurrentAsWrittenAtBoundaries | src/File.php:136-145 | when a file cursor's offset and min(offset + size, filesize) are character boundaries, the library's current chunk is the corrected one |
| Navigation.CurrentAsWrittenSingleByte | src/File.php:33-45 | on a file of single-byte characters the library's current chunk is always the corrected one |
| Navigation.CurrentAsWrittenFirst | src/File.php:140-141 | on a well-formed UTF-8 file the library's chunk at index 0 is the corrected one |
| Navigation.CurrentAsWrittenSplits | src/File.php:141 | the cursor on "aaaaaa€" with size 4 at index 1: the library's current chunk is bytes [4,8), ending inside "€"; the corrected one is bytes [4,6) |
| Navigation.WalkAsWritten | src/Chunker.php:74-81 | (library file fetch) a walk lists the library's chunks met from the cursor on, starting with its current() |
| Navigation.WalkAsWrittenJoins | src/Chunker.php:74-81 | walking a file cursor as the library does joins the library's chunks at its index and every later one, each fetched with its own index |
| Navigation.WalkAsWrittenSingleByte | src/File.php:33-45 | on a file of single-byte characters the library's walk is the corrected walk, chunk for chunk |
| Navigation.WalkAsWrittenRoundTripSingleByte | src/Chunker.php:59-81 | walking a fresh cursor on a file of single-byte characters as the library does, at any accepted size, and joining the chunks gives back the file |
| Navigation.WalkAsWrittenLength | src/Chunker.php:107-110 | the library's walk has one chunk per index from the cursor's to the last (none for an empty source: the single no-chunk) |
| Navigation.WalkAsWrittenAt | src/Chunker.php:74-81 | chunk k of the library's walk is the library's current() of the cursor k places on, which satisfies the cursor invariant |
| Navigation.WalkAsWrittenDropsBytes | src/File.php:136-145 | walking "aaaaaa€bcdefgh" with size 4: the library's walk never returns "c", while the corrected walk gives back the file |
| Scenarios.TextFoo | tests/TextTest.php:360-381 | "foo" with size 1: count 3, chunks "f", "o", "o", then none; previous() walks back; previous() at the start gives none |
| Scenarios.TextMultiByte | tests/TextTest.php:383-404 | "¢ €" with size 1: count 3 (also checked at tests/TextTest.php:100-103); previous() at the start gives none; chunks "¢", " ", "€", then none; previous() walks back through " " and "¢" to the first cursor, where previous() again gives none, current() is "¢" and next() is " " |
| Scenarios.EmptyText | tests/TextTest.php:90-93 | an empty text has no chunks; every query is false and every move gives none |
| Scenarios.EmptyFile | tests/FileTest.php:58-61 | an empty file has no chunks; every query is false and every move gives none |
| Scenarios.RejectedSizes | tests/TextTest.php:19-31 | text sizes 0 and -1 are rejected with minimum 1; file size 1 is rejected with minimum 4; file size 4 is accepted |
| Scenarios.WordsFileOneChunk | tests/FileTest.php:214-217 | the 26-byte single-byte file with size 26: one chunk, so hasChunk() and hasChunks() are true and hasNextChunk() is false, and the library's current chunk is the whole file |
| Scenarios.CentEuroFileChunks | src/File.php:33-45 | "¢€" (C2 A2 E2 82 AC) with size 4: two chunks, "¢" and then "€", from the library's fetch, whose walk gives back the file |
| Scenarios.WordsFileChunks | tests/FileTest.php:301-319 | "foo bar baz qux quux corge" with size 8: four chunks, "foo bar ", "baz qux ", "quux cor" and "ge" |
| Scenarios.MixedFileChunks | tests/FileTest.php:321-341 | the multi-byte fixture with size 8: the library's chunks are "foo ¢ b", "ar € b", then "az ¢ " plus two bytes of "€" (not UTF-8) where the fixture expects "az ¢ ", which is the corrected chunk |

## Left out

- The character encoding. The model is fixed to UTF-8. `setEncoding`, `mb_list_encodings` and `mb_internal_encoding` are not modelled, and neither is `getEncoding`. The other multi-byte encodings are not modelled: for them `mb_strcut` follows per-encoding rules.
- The file system. A file is an immutable byte string given as a value. `setName`/`is_readable`, a file that changes between calls, and the E_WARNING that is suppressed are not modelled.
- The getters `getIndex` and `getSize`, which are fields of the `Chunker` datatype. The aliases `current`, `next` and `previous` are the same operations as `getCurrentChunk`, `getNextChunk` and `getPreviousChunk`.
- The constructors' default sizes (2000 characters, 8192 bytes) appear only as constants used by the scenarios.
- PHP's `ceil` on a float. It is modelled as exact integer ceiling division, which equals it for every size and length below 2^53.
- PHP's 64-bit `int` overflow of `index * size`. Integers are unbounded.
- `Text::getChunk` compares the offset with `mb_strlen($this->text)` without passing the encoding. With the internal encoding set to UTF-8, as the test suite does, this is the character count, which is what the model uses.
- Navigation.Fetch: the cursor's `Fetch`, `Current`, `Next`, `Previous`, `Walk`, `CurrentIsFetch`, `CurrentFile`, `WalkFile`, `WalkLength`, `WalkAt` and `WalkRoundTrip` use the corrected file trim `FileChunking.GetChunk`, not the library's. A corrected file chunk can be up to 3 bytes longer than `size`, because its start moves left to the first byte of its character (`FileChunking.ChunkSpan`). The library's chunks are never longer than `size`. The library's cursor is `FetchAsWritten`, `CurrentAsWritten` and `WalkAsWritten`. `Next` and `Previous` have no library twin: the index moves the same way, and the chunk the library returns after a move is `CurrentAsWritten` of the moved cursor.
- MbString.CutBounds: `mb_strcut` is modelled for UTF-8 as PHP 8.3 and later perform it. The start moves left off continuation bytes, and the end is measured from the moved start. Earlier PHP versions walk forward from the start of the string with a table of character lengths indexed by lead byte. The test suite names a PHP 7.4 image (tests/TestCase.php:98-99). The two cuts agree on well-formed UTF-8. They can differ on malformed input, for example when a lead byte E2 is followed by ASCII bytes before `from`: the forward walk steps over those bytes as part of one character, while the backward scan stops at them. The lemmas that do not require well-formed input (`FileChunking.AsWrittenInFile`, `AsWrittenAgreesAtBoundaries`, `SingleByteChunks`) describe the PHP 8.3 cut. Neither version's repair or rejection of malformed UTF-8 is modelled beyond that.
- Text that is not well-formed UTF-8. The text source holds Dafny `char`s, that is, Unicode scalar values, so a PHP string with invalid UTF-8 cannot be given to `Text`, and `mb_substr`'s handling of such bytes is not modelled.

## Findings

| source | as written | input that shows it | evidently intended | confidence | as-written member | corrected member |
|---|---|---|---|---|---|---|
| src/File.php:99-145 | after the first chunk, the raw window is [offset - 4, offset + size). It has no padding after the chunk. `mb_strcut` then takes `size` bytes from the chunk start, cut short only by the end of the window, so the end is never moved left off a character that straddles it. The chunk can end inside a character, and the next chunk repeats those bytes. | "aaaaaa€" with size 4: chunks [0,4), [4,8), [6,9). Chunk 2 ends with E2 82; the chunks joined are 11 bytes. The test fixture "foo ¢ bar € baz ¢ €" with size 8 gives chunk 3 = "az ¢ " + E2 82 | pad the window in both directions (src/File.php:81) and move the end left to exclude the straddling character (the wording at src/File.php:127-128, not the diagram at 132-134): every chunk runs from the start of the character that holds its offset to the start of the character that holds offset + size, so the chunks are well-formed and join to the file | high (not executed) | FileChunking.AsWrittenSplitsCharacter | FileChunking.RoundTrip |
| src/File.php:136-145 | when a chunk's offset falls inside a character, `mb_strcut` moves the start left to that character and counts `size` bytes from the moved start. The chunk then ends before offset + size, while the next chunk starts at its own offset, so the bytes in between are never returned. | "aaaaaa€bcdefgh" with size 4: chunks [0,4), [4,8), [6,10), [12,16). Bytes 6-7 come twice and "cd" (bytes 10-11) never comes; the join has the file's length but is not the file | as above: the end is the start of the character that holds offset + size, whatever the start moved to, so consecutive chunks meet | high (not executed) | FileChunking.AsWrittenDropsBytes | FileChunking.RoundTrip |

=== FILE: chunker.dfy ===
/**
  The chunk cursor (src/Chunker.php): a chunk source, a chunk size and an
  index. `current`, `next` and `previous` fetch the chunk at byte or
  character offset index * size; at either end `next` and `previous` give
  no chunk and leave the cursor where it is.

  A cursor is an immutable value here: each operation that moves it returns
  the new cursor together with the chunk it fetched.

  File chunks come from the corrected trim (Fetch, Current, Walk) or from
  the library's own (FetchAsWritten, CurrentAsWritten, WalkAsWritten); the
  lemmas between the two say where they agree.
 */
module Navigation {
  import opened Chunks
  import TextChunking
  import FileChunking
  import opened Utf8

  /** What a cursor walks over: text (characters) or the bytes of a file. */
  datatype Source =
    | Text(text: seq<char>)
    | File(bytes: seq<uint8>)

  /** A fetched chunk's content: characters for text, bytes for a file. */
  datatype Content =
    | Chars(chars: seq<char>)
    | Bytes(bytes: seq<uint8>)

  /** The cursor state: the source, the chunk size in its units, and the chunk index. */
  datatype Chunker = Chunker(source: Source, size: nat, index: int)

  /** The default chunk sizes of the two constructors. */
  const DefaultTextSize: nat := 2000
  const DefaultFileSize: nat := 8192

  /** The smallest chunk size a source accepts: 1 for text, MAX_SIZE_CHARACTER for a file. */
  function MinSize(source: Source): (m: nat)
    ensures m >= 1
  {
    match source
    case Text(_) => 1
    case File(_) => FileChunking.MaxCharSize
  }

  /** The length of a source in its own units: characters for text, bytes for a file. */
  function Length(source: Source): nat {
    match source
    case Text(t) => |t|
    case File(b) => |b|
  }

  /** setSize: a size below the source's minimum is rejected and names that minimum. */
  function SetSize(source: Source, size: int): (r: Result<nat>)
    ensures r.Ok? <==> size >= MinSize(source)
    ensures r.Ok? ==> r.value == size
    ensures r.Failure? ==> r.error == SizeTooSmall(MinSize(source))
  {
    if size < MinSize(source) then Failure(SizeTooSmall(MinSize(source))) else Ok(size)
  }

  /** A size the cursor's source accepts. */
  predicate WellSized(c: Chunker) {
    c.size >= MinSize(c.source)
  }

  /** The number of chunks: the length divided by the size, rounded up. */
  function Count(c: Chunker): (n: nat)
    requires WellSized(c)
    ensures n == 0 <==> Length(c.source) == 0
    ensures Length(c.source) <= n * c.size < Length(c.source) + c.size
  {
    CountChunks(Length(c.source), c.size)
  }

  /**
    The cursor invariant: the size is accepted, the index is never negative,
    and it names a chunk unless there are none (then it is 0).
   */
  predicate Inv(c: Chunker) {
    && WellSized(c)
    && 0 <= c.index
    && (Count(c) == 0 ==> c.index == 0)
    && (Count(c) > 0 ==> c.index < Count(c))
  }

  /** The constructor: a fresh cursor at index 0, or the size error. */
  function New(source: Source, size: int): (r: Result<Chunker>)
    ensures r.Ok? <==> size >= MinSize(source)
    ensures r.Failure? ==> r.error == SizeTooSmall(MinSize(source))
    ensures r.Ok? ==> r.value.source == source && r.value.size == size && r.value.index == 0
    ensures r.Ok? ==> Inv(r.value)
  {
    match SetSize(source, size)
    case Failure(e) => Failure(e)
    case Ok(s) => Ok(Chunker(source, s, 0))
  }

  /**
    The chunk expected at an offset inside the source: for text, the next
    `size` characters (fewer at the end); for a file, the bytes from the
    first byte of the character holding `offset` to the first byte of the
    character holding offset + size (or the end of the file).
   */
  function Expected(source: Source, size: nat, offset: nat): (x: Content)
    requires size >= MinSize(source) && offset < Length(source)
    ensures !IsEmpty(x)
  {
    match source
    case Text(t) => Chars(t[offset..Min(offset + size, |t|)])
    case File(b) => Bytes(b[FileChunking.ChunkStart(b, offset)..FileChunking.ChunkEnd(b, size, offset)])
  }

  /** True when a content has no characters or bytes. */
  predicate IsEmpty(x: Content) {
    match x
    case Chars(s) => |s| == 0
    case Bytes(s) => |s| == 0
  }

  /**
    getChunk($offset) of the cursor's source. The file source uses the
    corrected trim of FileChunking.GetChunk.
   */
  function Fetch(source: Source, size: nat, offset: int): (r: Result<Chunk<Content>>)
    requires size >= MinSize(source)
    ensures r.Failure? <==> offset < 0
    ensures r.Failure? ==> r.error == NegativeOffset
    ensures 0 <= offset < Length(source) ==> r == Ok(Piece(Expected(source, size, offset)))
    ensures 0 <= offset < Length(source) ==> !IsEmpty(Expected(source, size, offset))
    ensures offset >= Length(source) ==> r == Ok(NoChunk) || (r.Ok? && r.value.Piece? && IsEmpty(r.value.content))
    ensures source.Text? && offset >= Length(source) ==> r == Ok(NoChunk)
  {
    match source
    case Text(t) =>
      (match TextChunking.GetChunk(t, size, offset)
       case Failure(e) => Failure(e)
       case Ok(NoChunk) => Ok(NoChunk)
       case Ok(Piece(s)) => Ok(Piece(Chars(s))))
    case File(b) =>
      FileFetchFacts(b, size, offset);
      match FileChunking.GetChunk(b, size, offset)
      case Failure(e) => Failure(e)
      case Ok(NoChunk) => Ok(NoChunk)
      case Ok(Piece(s)) => Ok(Piece(Bytes(s)))
  }

  /** What the corrected file fetch gives inside and past the end of the file. */
  lemma FileFetchFacts(b: seq<uint8>, size: nat, offset: int)
    requires size >= FileChunking.MaxCharSize
    ensures 0 <= offset < |b| ==>
              FileChunking.GetChunk(b, size, offset)
              == Ok(Piece(b[FileChunking.ChunkStart(b, offset)..FileChunking.ChunkEnd(b, size, offset)]))
    ensures offset >= |b| ==>
              var r := FileChunking.GetChunk(b, size, offset);
              r == Ok(NoChunk) || (r.Ok? && r.value.Piece? && |r.value.content| == 0)
  {
    if 0 <= offset < |b| {
      FileChunking.ChunkInFile(b, size, offset);
    } else if offset >= |b| {
      FileChunking.FetchPastEnd(b, size, offset);
    }
  }

  /**
    getCurrentChunk: the chunk at offset index * size, which is inside the
    source whenever the source is not empty. See CurrentIsFetch for the
    link to getChunk.
   */
  function Current(c: Chunker): (r: Chunk<Content>)
    requires Inv(c)
    ensures r == NoChunk <==> Count(c) == 0
    ensures r.Piece? ==> !IsEmpty(r.content)
  {
    if Length(c.source) == 0 then NoChunk
    else
      ChunkIndexInRange(Length(c.source), c.size, c.index);
      Piece(Expected(c.source, c.size, c.index * c.size))
  }

  /** The current chunk is what the source's getChunk returns at offset index * size. */
  lemma CurrentIsFetch(c: Chunker)
    requires Inv(c)
    ensures Fetch(c.source, c.size, c.index * c.size) == Ok(Current(c))
  {
    ChunkIndexInRange(Length(c.source), c.size, c.index);
    if Length(c.source) == 0 {
      assert c.index * c.size == 0;
    }
  }

  /** The number of characters or bytes in a content. */
  function Size(x: Content): nat {
    match x
    case Chars(s) => |s|
    case Bytes(s) => |s|
  }

  /**
    getChunk($offset) of the cursor's source as the library performs it: a
    file is trimmed by FileChunking.GetChunkAsWritten, whose cut start
    depends on the cursor's index as well as on the offset. A file read that
    starts inside the file gives a piece, possibly empty; a piece is never
    longer than `size`. Text is fetched as in Fetch.
   */
  function FetchAsWritten(source: Source, size: nat, index: nat, offset: int): (r: Result<Chunk<Content>>)
    requires size >= MinSize(source)
    ensures r.Failure? <==> offset < 0
    ensures r.Failure? ==> r.error == NegativeOffset
    ensures source.Text? ==> r == Fetch(source, size, offset)
    ensures source.File? && r.Ok? ==> (r.value.NoChunk? <==> FileChunking.WindowStart(offset) >= Length(source))
    ensures r.Ok? && r.value.Piece? ==> Size(r.value.content) <= size
    ensures source.File? && 0 <= offset < Length(source) && FileChunking.CutStartsAtOffset(index, offset)
            && IsBoundary(source.bytes, offset) && IsBoundary(source.bytes, Min(offset + size, Length(source)))
            ==> r == Fetch(source, size, offset)
  {
    match source
    case Text(t) => Fetch(source, size, offset)
    case File(b) =>
      AsWrittenFetchFacts(b, size, index, offset);
      match FileChunking.GetChunkAsWritten(b, size, index, offset)
      case Failure(e) => Failure(e)
      case Ok(NoChunk) => Ok(NoChunk)
      case Ok(Piece(s)) => Ok(Piece(Bytes(s)))
  }

  /** Where the library's cut starts at `offset` and both chunk bounds are character boundaries, its trim is the corrected one. */
  lemma AsWrittenFetchFacts(b: seq<uint8>, size: nat, index: nat, offset: int)
    requires size >= FileChunking.MaxCharSize
    ensures 0 <= offset < |b| && FileChunking.CutStartsAtOffset(index, offset)
            && IsBoundary(b, offset) && IsBoundary(b, Min(offset + size, |b|))
            ==> FileChunking.GetChunkAsWritten(b, size, index, offset) == FileChunking.GetChunk(b, size, offset)
  {
    if 0 <= offset < |b| && FileChunking.CutStartsAtOffset(index, offset)
       && IsBoundary(b, offset) && IsBoundary(b, Min(offset + size, |b|)) {
      FileChunking.AsWrittenAgreesAtBoundaries(b, size, index, offset);
    }
  }

  /**
    getCurrentChunk as the library performs it: its getChunk at offset
    index * size, fetched with the cursor's index. Its file chunks are never
    longer than `size` bytes but may end inside a character (see
    CurrentAsWrittenSplits); text chunks are those of Current.
   */
  function CurrentAsWritten(c: Chunker): (r: Chunk<Content>)
    requires Inv(c)
    ensures r == NoChunk <==> Count(c) == 0
    ensures r.Piece? ==> Size(r.content) <= c.size
  {
    ChunkIndexInRange(Length(c.source), c.size, c.index);
    match FetchAsWritten(c.source, c.size, c.index, c.index * c.size)
    case Ok(x) => x
    case Failure(_) => NoChunk
  }

  /** For text the library's current chunk is the one Current gives. */
  lemma CurrentAsWrittenText(c: Chunker)
    requires Inv(c) && c.source.Text?
    ensures CurrentAsWritten(c) == Current(c)
  {
    CurrentIsFetch(c);
  }

  /**
    Where a file cursor's chunk bounds, offset index * size and the next
    offset (or the end of the file), are character boundaries, the library's
    current chunk is the corrected one. The offset o is passed in, rather
    than returned, only to keep the proof cheap for the solver.
   */
  lemma CurrentAsWrittenAtBoundaries(c: Chunker, o: nat)
    requires Inv(c) && c.source.File? && Count(c) > 0 && o == c.index * c.size
    ensures o < |c.source.bytes|
    ensures IsBoundary(c.source.bytes, o) && IsBoundary(c.source.bytes, Min(o + c.size, |c.source.bytes|))
            ==> CurrentAsWritten(c) == Current(c)
  {
    var x, y := BothFetches(c, o);
    FetchesAgree(c.source, c.size, c.index, o, x, y);
  }

  /** The library's and the corrected current chunk of a file cursor with chunks, each as its fetch at offset o. */
  lemma BothFetches(c: Chunker, o: nat) returns (x: Chunk<Content>, y: Chunk<Content>)
    requires Inv(c) && c.source.File? && Count(c) > 0 && o == c.index * c.size
    ensures o < |c.source.bytes| && c.size >= MinSize(c.source)
    ensures x == CurrentAsWritten(c) && FetchAsWritten(c.source, c.size, c.index, o) == Ok(x)
    ensures y == Current(c) && Fetch(c.source, c.size, o) == Ok(y)
  {
    var o' := CurrentAsWrittenIsFetch(c);
    ChunkIndexInRange(Length(c.source), c.size, c.index);
    CurrentIsFetch(c);
    x, y := CurrentAsWritten(c), Current(c);
  }

  /** At the cursor's own offset, where both ends are boundaries, the library's file fetch and the corrected one agree. */
  lemma FetchesAgree(source: Source, size: nat, index: nat, o: nat, x: Chunk<Content>, y: Chunk<Content>)
    requires source.File? && size >= MinSize(source) && o == index * size && o < |source.bytes|
    requires FetchAsWritten(source, size, index, o) == Ok(x) && Fetch(source, size, o) == Ok(y)
    ensures IsBoundary(source.bytes, o) && IsBoundary(source.bytes, Min(o + size, |source.bytes|)) ==> x == y
  {
    FileChunking.CutFromMatchesOffset(size, index);
  }

  /** The library's current chunk is what its getChunk returns at offset index * size. */
  lemma CurrentAsWrittenIsFetch(c: Chunker) returns (o: nat)
    requires Inv(c)
    ensures o == c.index * c.size
    ensures FetchAsWritten(c.source, c.size, c.index, o) == Ok(CurrentAsWritten(c))
  {
    o := c.index * c.size;
  }

  /** On a file of single-byte characters the library's current chunk is always the corrected one. */
  lemma CurrentAsWrittenSingleByte(c: Chunker)
    requires Inv(c) && c.source.File? && FileChunking.AllSingleByte(c.source.bytes)
    ensures CurrentAsWritten(c) == Current(c)
  {
    if Count(c) > 0 {
      var b := c.source.bytes;
      var o := c.index * c.size;
      CurrentAsWrittenAtBoundaries(c, o);
      var m := Min(o + c.size, |b|);
      assert IsBoundary(b, o) && IsBoundary(b, m);
    }
  }

  /** On a well-formed UTF-8 file the library's first chunk is the corrected one. */
  lemma CurrentAsWrittenFirst(c: Chunker)
    requires Inv(c) && c.source.File? && c.index == 0 && Valid(c.source.bytes)
    ensures CurrentAsWritten(c) == Current(c)
  {
    if Count(c) > 0 {
      FileChunking.AsWrittenFirstChunkAgrees(c.source.bytes, c.size);
      CurrentIsFetch(c);
    }
  }

  /**
    A file cursor over "aaaaaa€" at size 4 and index 1: the library's current
    chunk is "aa" and the first two bytes of "€"; the corrected one is "aa".
   */
  lemma CurrentAsWrittenSplits()
    ensures Inv(Chunker(File(FileChunking.SplitExample), 4, 1))
    ensures CurrentAsWritten(Chunker(File(FileChunking.SplitExample), 4, 1))
            == Piece(Bytes(FileChunking.SplitExample[4..8]))
    ensures Current(Chunker(File(FileChunking.SplitExample), 4, 1))
            == Piece(Bytes(FileChunking.SplitExample[4..6]))
  {
    var c := Chunker(File(FileChunking.SplitExample), 4, 1);
    assert Count(c) == 3;
    FileChunking.AsWrittenSplitsCharacter();
    CurrentIsFetch(c);
  }

  /** hasChunk: exactly one chunk, that is, a non-empty source no longer than one chunk. */
  function HasChunk(c: Chunker): (b: bool)
    requires WellSized(c)
    ensures b <==> 0 < Length(c.source) <= c.size
  {
    ChunkIndexInRange(Length(c.source), c.size, 0);
    ChunkIndexInRange(Length(c.source), c.size, 1);
    Count(c) == 1
  }

  /** hasChunks: at least one chunk, that is, a non-empty source. */
  function HasChunks(c: Chunker): (b: bool)
    requires WellSized(c)
    ensures b <==> Length(c.source) > 0
  {
    Count(c) > 0
  }

  /** hasNextChunk: the chunk after the current one starts inside the source. */
  function HasNextChunk(c: Chunker): (b: bool)
    requires WellSized(c)
    ensures c.index >= -1 ==> (b <==> (c.index + 1) * c.size < Length(c.source))
  {
    ChunkIndexInRange(Length(c.source), c.size, Max(c.index + 1, 0));
    c.index + 1 < Count(c)
  }

  /** hasPreviousChunk: the cursor is past the first chunk. */
  function HasPreviousChunk(c: Chunker): (b: bool)
    ensures b <==> c.index >= 1
  {
    c.index - 1 >= 0
  }

  /**
    getNextChunk: when there is a next chunk, the index moves up by exactly
    one and the chunk at the new offset is returned; otherwise nothing changes
    and no chunk is returned.
   */
  function Next(c: Chunker): (r: (Chunker, Chunk<Content>))
    requires Inv(c)
    ensures Inv(r.0)
    ensures r.0.source == c.source && r.0.size == c.size
    ensures HasNextChunk(c) ==>
              && r.0.index == c.index + 1
              && r.0.index * c.size < Length(c.source)
              && r.1 == Piece(Expected(c.source, c.size, r.0.index * c.size))
    ensures !HasNextChunk(c) ==> r.0 == c && r.1 == NoChunk
    ensures r.1 == NoChunk || r.1 == Current(r.0)
  {
    if !HasNextChunk(c) then (c, NoChunk)
    else
      var c' := c.(index := c.index + 1);
      ChunkIndexInRange(Length(c.source), c.size, c'.index);
      (c', Current(c'))
  }

  /**
    getPreviousChunk: when the cursor is past the first chunk, the index
    moves down by exactly one and the chunk at the new offset is returned;
    otherwise nothing changes and no chunk is returned.
   */
  function Previous(c: Chunker): (r: (Chunker, Chunk<Content>))
    requires Inv(c)
    ensures Inv(r.0)
    ensures r.0.source == c.source && r.0.size == c.size
    ensures HasPreviousChunk(c) ==>
              && r.0.index == c.index - 1
              && r.0.index * c.size < Length(c.source)
              && r.1 == Piece(Expected(c.source, c.size, r.0.index * c.size))
    ensures !HasPreviousChunk(c) ==> r.0 == c && r.1 == NoChunk
    ensures r.1 == NoChunk || r.1 == Current(r.0)
  {
    if !HasPreviousChunk(c) then (c, NoChunk)
    else
      var c' := c.(index := c.index - 1);
      ChunkIndexInRange(Length(c.source), c.size, c'.index);
      (c', Current(c'))
  }

  /** reset: back to index 0; the source and size are untouched and the invariant holds. */
  function Reset(c: Chunker): (r: Chunker)
    requires Inv(c)
    ensures r.source == c.source && r.size == c.size && r.index == 0
    ensures Inv(r)
    ensures Count(r) > 0 ==> Current(r) == Piece(Expected(c.source, c.size, 0))
  {
    c.(index := 0)
  }

  /** A successful next followed by previous restores the cursor and returns the chunk it started on. */
  lemma NextThenPrevious(c: Chunker)
    requires Inv(c) && HasNextChunk(c)
    ensures Previous(Next(c).0) == (c, Current(c))
  {
    var n := Next(c).0;
    assert n == c.(index := c.index + 1);
    assert HasPreviousChunk(n);
    assert n.(index := n.index - 1) == c;
  }

  /** A successful previous followed by next restores the cursor and returns the chunk it started on. */
  lemma PreviousThenNext(c: Chunker)
    requires Inv(c) && HasPreviousChunk(c)
    ensures Next(Previous(c).0) == (c, Current(c))
  {
    var p := Previous(c).0;
    assert p == c.(index := c.index - 1);
    assert HasNextChunk(p);
    assert p.(index := p.index + 1) == c;
  }

  /** At either end the move is a no-op, however often it is repeated, and current() is unaffected. */
  lemma StuckAtEnds(c: Chunker)
    requires Inv(c)
    ensures !HasNextChunk(c) ==> Next(Next(c).0) == (c, NoChunk) && Current(Next(c).0) == Current(c)
    ensures !HasPreviousChunk(c) ==> Previous(Previous(c).0) == (c, NoChunk) && Current(Previous(c).0) == Current(c)
  {
  }

  /** The chunks a loop of current() and then next() until no chunk meets, starting from the cursor. */
  function Walk(c: Chunker): (chunks: seq<Chunk<Content>>)
    requires Inv(c)
    ensures |chunks| >= 1 && chunks[0] == Current(c)
    decreases Count(c) - c.index
  {
    if HasNextChunk(c) then [Current(c)] + Walk(c.(index := c.index + 1)) else [Current(c)]
  }

  /** The characters of the text chunks in a list, joined in order. */
  function CharsOf(chunks: seq<Chunk<Content>>): seq<char> {
    if |chunks| == 0 then []
    else
      (match chunks[0] case Piece(Chars(s)) => s case _ => []) + CharsOf(chunks[1..])
  }

  /** The bytes of the file chunks in a list, joined in order. */
  function BytesOf(chunks: seq<Chunk<Content>>): seq<uint8> {
    if |chunks| == 0 then []
    else
      (match chunks[0] case Piece(Bytes(s)) => s case _ => []) + BytesOf(chunks[1..])
  }

  lemma CharsOfCons(x: Chunk<Content>, rest: seq<Chunk<Content>>)
    ensures CharsOf([x] + rest) == CharsOf([x]) + CharsOf(rest)
  {
    assert ([x] + rest)[1..] == rest;
  }

  lemma BytesOfCons(x: Chunk<Content>, rest: seq<Chunk<Content>>)
    ensures BytesOf([x] + rest) == BytesOf([x]) + BytesOf(rest)
  {
    assert ([x] + rest)[1..] == rest;
  }

  /** A walk that is a first chunk followed by the rest joins to the first chunk's bytes followed by the rest's. */
  lemma BytesOfStep(w: seq<Chunk<Content>>, first: Chunk<Content>, rest: seq<Chunk<Content>>,
                    x: seq<uint8>, tail: seq<uint8>, whole: seq<uint8>)
    requires w == [first] + rest && BytesOf([first]) == x && BytesOf(rest) == tail && x + tail == whole
    ensures BytesOf(w) == whole
  {
    BytesOfCons(first, rest);
  }

  /** With chunks, the current one is the expected chunk at offset index * size, inside the source. */
  lemma CurrentIsExpected(c: Chunker) returns (o: nat)
    requires Inv(c) && Count(c) > 0
    ensures o == c.index * c.size && o < Length(c.source)
    ensures Current(c) == Piece(Expected(c.source, c.size, o))
  {
    ChunkIndexInRange(Length(c.source), c.size, c.index);
    o := c.index * c.size;
  }

  /** The current chunk of a text cursor with chunks: the text from its offset up to the next offset. */
  lemma CurrentText(c: Chunker) returns (o: nat, x: seq<char>)
    requires Inv(c) && c.source.Text? && Count(c) > 0
    ensures o == c.index * c.size && o < |c.source.text|
    ensures Current(c) == Piece(Chars(x))
    ensures x + c.source.text[Min(o + c.size, |c.source.text|)..] == c.source.text[o..]
  {
    var t := c.source.text;
    o := CurrentIsExpected(c);
    x := t[o..Min(o + c.size, |t|)];
  }

  /**
    The current chunk of a file cursor with chunks: the file from the first
    byte of the character holding its offset up to the first byte of the
    character holding the next offset (or the end of the file).
   */
  lemma CurrentFile(c: Chunker) returns (o: nat, x: seq<uint8>)
    requires Inv(c) && c.source.File? && Count(c) > 0
    ensures o == c.index * c.size && o < |c.source.bytes|
    ensures Current(c) == Piece(Bytes(x))
    ensures o + c.size < |c.source.bytes| ==>
              x + c.source.bytes[CharStart(c.source.bytes, o + c.size)..] == c.source.bytes[CharStart(c.source.bytes, o)..]
    ensures o + c.size >= |c.source.bytes| ==> x == c.source.bytes[CharStart(c.source.bytes, o)..]
  {
    var b := c.source.bytes;
    o := CurrentIsExpected(c);
    var a, e := FileChunking.ChunkSpan(b, c.size, o);
    x := b[a..e];
  }

  /**
    The cursor after a successful next, with the corrected walk unfolded by
    one step there. It and NextOffset are kept apart only to keep the proofs
    cheap for the solver; they model nothing beyond getNextChunk's ++index.
   */
  lemma Advance(c: Chunker) returns (n: Chunker)
    requires Inv(c) && HasNextChunk(c)
    ensures n == c.(index := c.index + 1) && Inv(n)
    ensures n.index * n.size == c.index * c.size + c.size < Length(c.source)
    ensures Walk(c) == [Current(c)] + Walk(n)
  {
    n := c.(index := c.index + 1);
    ChunkIndexInRange(Length(c.source), c.size, n.index);
  }

  /**
    After a successful next the offset has moved on by one chunk and is still
    inside the source. Unlike Advance it says nothing about Walk, so the
    proofs about the library's walk do not carry the corrected one along;
    the split exists only to keep those proofs cheap for the solver.
  */
  lemma NextOffset(c: Chunker) returns (n: Chunker)
    requires Inv(c) && HasNextChunk(c)
    ensures n == c.(index := c.index + 1) && Inv(n)
    ensures n.index * n.size == c.index * c.size + c.size < Length(c.source)
  {
    n := c.(index := c.index + 1);
    ChunkIndexInRange(Length(c.source), c.size, n.index);
  }

  /** At the last chunk (or with none) the walk is the current chunk alone, and nothing follows it. */
  lemma AtEnd(c: Chunker)
    requires Inv(c) && !HasNextChunk(c)
    ensures Walk(c) == [Current(c)]
    ensures c.index * c.size + c.size >= Length(c.source)
    ensures Count(c) == 0 ==> Current(c) == NoChunk && c.index * c.size == 0
  {
    assert (c.index + 1) * c.size == c.index * c.size + c.size;
  }

  /** The characters a text walk joins from its offset on. */
  function TextRest(c: Chunker): seq<char>
    requires Inv(c) && c.source.Text?
  {
    c.source.text[Min(c.index * c.size, |c.source.text|)..]
  }

  /** The bytes a file walk joins from its offset on: from the first byte of the character holding it. */
  function FileRest(c: Chunker): seq<uint8>
    requires Inv(c) && c.source.File?
  {
    var b := c.source.bytes;
    b[CharStart(b, Min(c.index * c.size, |b|))..]
  }

  /** One step of a text walk: the current chunk followed by the rest from the next offset is the rest from this one. */
  lemma WalkTextStep(c: Chunker, n: Chunker)
    requires Inv(c) && c.source.Text? && HasNextChunk(c)
    requires n == c.(index := c.index + 1) && Inv(n) && CharsOf(Walk(n)) == TextRest(n)
    ensures CharsOf(Walk(c)) == TextRest(c)
  {
    var n' := Advance(c);
    var o, x := CurrentText(c);
    CharsOfCons(Current(c), Walk(n));
    assert CharsOf([Current(c)]) == x;
  }

  /** One step of a file walk, as for text. */
  lemma WalkFileStep(c: Chunker, n: Chunker)
    requires Inv(c) && c.source.File? && HasNextChunk(c)
    requires n == c.(index := c.index + 1) && Inv(n) && BytesOf(Walk(n)) == FileRest(n)
    ensures BytesOf(Walk(c)) == FileRest(c)
  {
    var n' := Advance(c);
    var x := FileChunkThenRest(c, n);
    BytesOfStep(Walk(c), Current(c), Walk(n), x, FileRest(n), FileRest(c));
  }

  /** The current chunk of a file cursor that has a next one, followed by the rest from the next offset, is the rest from this offset. */
  lemma FileChunkThenRest(c: Chunker, n: Chunker) returns (x: seq<uint8>)
    requires Inv(c) && c.source.File? && HasNextChunk(c)
    requires n == c.(index := c.index + 1) && Inv(n)
    ensures BytesOf([Current(c)]) == x
    ensures x + FileRest(n) == FileRest(c)
  {
    var n' := NextOffset(c);
    var o, x' := CurrentFile(c);
    x := x';
    assert BytesOf([Current(c)]) == x;
    var o' := FileRestAt(c);
    var p := FileRestAt(n');
    assert o' == o && p == o + c.size;
  }

  /** The rest of a file cursor, from the character holding its offset. */
  lemma FileRestAt(c: Chunker) returns (o: nat)
    requires Inv(c) && c.source.File? && c.index * c.size < |c.source.bytes|
    ensures o == c.index * c.size
    ensures FileRest(c) == c.source.bytes[CharStart(c.source.bytes, o)..]
  {
    o := c.index * c.size;
  }

  /** The last step of a walk over text: the current chunk alone, or nothing for empty text. */
  lemma WalkTextLast(c: Chunker)
    requires Inv(c) && c.source.Text? && !HasNextChunk(c)
    ensures CharsOf(Walk(c)) == TextRest(c)
  {
    AtEnd(c);
    if Count(c) > 0 {
      var o, x := CurrentText(c);
      assert CharsOf([Current(c)]) == x;
    }
  }

  /** The last step of a walk over a file. */
  lemma WalkFileLast(c: Chunker)
    requires Inv(c) && c.source.File? && !HasNextChunk(c)
    ensures BytesOf(Walk(c)) == FileRest(c)
  {
    AtEnd(c);
    if Count(c) > 0 {
      var o, x := CurrentFile(c);
      assert BytesOf([Current(c)]) == x;
    }
  }

  /** Walking a text cursor joins the text from its offset on. */
  lemma {:induction false} WalkText(c: Chunker)
    requires Inv(c) && c.source.Text?
    ensures CharsOf(Walk(c)) == TextRest(c)
    decreases Count(c) - c.index
  {
    if HasNextChunk(c) {
      var n := Advance(c);
      WalkText(n);
      WalkTextStep(c, n);
    } else {
      WalkTextLast(c);
    }
  }

  /**
    Walking a file cursor joins the file from the first byte of the
    character holding its offset on: nothing is lost or repeated.
   */
  lemma {:induction false} WalkFile(c: Chunker)
    requires Inv(c) && c.source.File?
    ensures BytesOf(Walk(c)) == FileRest(c)
    decreases Count(c) - c.index
  {
    if HasNextChunk(c) {
      var n := Advance(c);
      WalkFile(n);
      WalkFileStep(c, n);
    } else {
      WalkFileLast(c);
    }
  }

  /**
    Walking a fresh cursor from the first chunk to the last and joining what
    it returns reproduces the source exactly, text and file alike.
   */
  lemma WalkRoundTrip(source: Source, size: int)
    requires size >= MinSize(source)
    ensures source.Text? ==> CharsOf(Walk(New(source, size).value)) == source.text
    ensures source.File? ==> BytesOf(Walk(New(source, size).value)) == source.bytes
  {
    var c := New(source, size).value;
    match source
    case Text(t) =>
      WalkText(c);
    case File(b) =>
      WalkFile(c);
  }

  /** The chunks the library's loop of current() and then next() meets, starting from the cursor. */
  function WalkAsWritten(c: Chunker): (chunks: seq<Chunk<Content>>)
    requires Inv(c)
    ensures |chunks| >= 1 && chunks[0] == CurrentAsWritten(c)
    decreases Count(c) - c.index
  {
    if HasNextChunk(c) then [CurrentAsWritten(c)] + WalkAsWritten(c.(index := c.index + 1)) else [CurrentAsWritten(c)]
  }

  /** The library's current chunk of a file cursor with chunks is the library's getChunk at that index. */
  lemma CurrentAsWrittenFile(c: Chunker) returns (o: nat, x: seq<uint8>)
    requires Inv(c) && c.source.File? && Count(c) > 0
    ensures o == c.index * c.size
    ensures FileChunking.GetChunkAsWritten(c.source.bytes, c.size, c.index, o) == Ok(Piece(x))
    ensures CurrentAsWritten(c) == Piece(Bytes(x))
    ensures BytesOf([CurrentAsWritten(c)]) == x
  {
    o := c.index * c.size;
    x := CurrentAsWritten(c).content.bytes;
    assert BytesOf([CurrentAsWritten(c)]) == x + BytesOf([]);
  }

  /**
    Walking a file cursor as the library does joins exactly its chunks at
    this index and every later one, each fetched with its own index.
   */
  lemma {:induction false} WalkAsWrittenJoins(c: Chunker)
    requires Inv(c) && c.source.File?
    ensures BytesOf(WalkAsWritten(c)) == FileChunking.JoinFromAsWritten(c.source.bytes, c.size, c.index)
    decreases Count(c) - c.index
  {
    if HasNextChunk(c) {
      var n := NextOffset(c);
      WalkAsWrittenJoins(n);
      var b := c.source.bytes;
      var rest := FileChunking.JoinFromAsWritten(b, c.size, n.index);
      var whole := FileChunking.JoinFromAsWritten(b, c.size, c.index);
      var x := JoinAtCurrent(c, n, rest, whole);
      WalkAsWrittenStep(c, n, x, rest, whole);
    } else {
      WalkAsWrittenLast(c);
    }
  }

  /** The library's join from a file cursor's index is its current chunk followed by the join from the next index. */
  lemma JoinAtCurrent(c: Chunker, n: Chunker, rest: seq<uint8>, whole: seq<uint8>) returns (x: seq<uint8>)
    requires Inv(c) && c.source.File? && HasNextChunk(c) && n == c.(index := c.index + 1)
    requires rest == FileChunking.JoinFromAsWritten(c.source.bytes, c.size, n.index)
    requires whole == FileChunking.JoinFromAsWritten(c.source.bytes, c.size, c.index)
    ensures BytesOf([CurrentAsWritten(c)]) == x && x + rest == whole
  {
    var o;
    o, x := CurrentAsWrittenFile(c);
    var x' := FileChunking.JoinFromAsWrittenStep(c.source.bytes, c.size, c.index, o, n.index);
  }

  /** One step of the library's file walk: its current chunk, then the walk from the next index. */
  lemma WalkAsWrittenStep(c: Chunker, n: Chunker, x: seq<uint8>, rest: seq<uint8>, whole: seq<uint8>)
    requires Inv(c) && HasNextChunk(c) && n == c.(index := c.index + 1) && Inv(n)
    requires BytesOf([CurrentAsWritten(c)]) == x && BytesOf(WalkAsWritten(n)) == rest && x + rest == whole
    ensures BytesOf(WalkAsWritten(c)) == whole
  {
    WalkAsWrittenUnfold(c, n);
    BytesOfStep(WalkAsWritten(c), CurrentAsWritten(c), WalkAsWritten(n), x, rest, whole);
  }

  /** A library walk that has a next chunk is the current chunk followed by the walk from the next index. */
  lemma WalkAsWrittenUnfold(c: Chunker, n: Chunker)
    requires Inv(c) && HasNextChunk(c) && n == c.(index := c.index + 1) && Inv(n)
    ensures WalkAsWritten(c) == [CurrentAsWritten(c)] + WalkAsWritten(n)
  {
    var w := WalkAsWritten(c);
    assert w == [CurrentAsWritten(c)] + WalkAsWritten(n);
  }

  /** The last step of the library's file walk: the current chunk alone, or nothing for an empty file. */
  lemma WalkAsWrittenLast(c: Chunker)
    requires Inv(c) && c.source.File? && !HasNextChunk(c)
    ensures BytesOf(WalkAsWritten(c)) == FileChunking.JoinFromAsWritten(c.source.bytes, c.size, c.index)
  {
    var b := c.source.bytes;
    if Count(c) == 0 {
      assert BytesOf([NoChunk]) == [] + BytesOf([]);
    } else {
      var o, x := CurrentAsWrittenFile(c);
      var x' := FileChunking.JoinFromAsWrittenStep(b, c.size, c.index, o, c.index + 1);
      assert FileChunking.JoinFromAsWritten(b, c.size, c.index + 1) == [];
    }
  }

  /**
    Walking the well-formed file "aaaaaa€bcdefgh" at size 4: the library's
    walk never returns the "c" at byte 10, while the corrected walk gives
    back the file.
   */
  lemma WalkAsWrittenDropsBytes()
    ensures New(File(FileChunking.GapExample), 4).Ok?
    ensures FileChunking.GapExample[10..12] == [0x63, 0x64]
    ensures 0x63 !in BytesOf(WalkAsWritten(New(File(FileChunking.GapExample), 4).value))
    ensures BytesOf(Walk(New(File(FileChunking.GapExample), 4).value)) == FileChunking.GapExample
  {
    var c := New(File(FileChunking.GapExample), 4).value;
    WalkAsWrittenJoins(c);
    FileChunking.AsWrittenDropsBytes();
    WalkRoundTrip(File(FileChunking.GapExample), 4);
  }

  /** On a file of single-byte characters the library's walk is the corrected walk, chunk for chunk. */
  lemma {:induction false} WalkAsWrittenSingleByte(c: Chunker)
    requires Inv(c) && c.source.File? && FileChunking.AllSingleByte(c.source.bytes)
    ensures WalkAsWritten(c) == Walk(c)
    decreases Count(c) - c.index
  {
    CurrentAsWrittenSingleByte(c);
    if HasNextChunk(c) {
      var n := Advance(c);
      WalkAsWrittenSingleByte(n);
      WalkAsWrittenUnfold(c, n);
    }
  }

  /** The library's own walk gives back a file of single-byte characters, at every accepted size. */
  lemma WalkAsWrittenRoundTripSingleByte(b: seq<uint8>, size: int)
    requires FileChunking.AllSingleByte(b) && size >= MinSize(File(b))
    ensures New(File(b), size).Ok?
    ensures BytesOf(WalkAsWritten(New(File(b), size).value)) == b
  {
    WalkAsWrittenSingleByte(New(File(b), size).value);
    WalkRoundTrip(File(b), size);
  }

  /** A walk has one chunk for each index from the cursor's to the last, or the single no-chunk for an empty source. */
  lemma {:induction false} WalkLength(c: Chunker)
    requires Inv(c)
    ensures Count(c) > 0 ==> |Walk(c)| == Count(c) - c.index
    ensures Count(c) == 0 ==> Walk(c) == [NoChunk]
    decreases Count(c) - c.index
  {
    if HasNextChunk(c) {
      var n := Advance(c);
      WalkLength(n);
    } else {
      AtEnd(c);
    }
  }

  /** Past the head, element k of a list built as head followed by rest is element k - 1 of rest. */
  lemma ConsAt<T>(w: seq<T>, head: T, rest: seq<T>, k: nat, x: T)
    requires w == [head] + rest && 0 < k < |w| && rest[k - 1] == x
    ensures w[k] == x
  {
  }

  /** Chunk k of a walk is the current chunk of the cursor d, k places further on. */
  lemma {:induction false} WalkAt(c: Chunker, k: nat, d: Chunker)
    requires Inv(c) && k < |Walk(c)| && d == c.(index := c.index + k)
    ensures Inv(d) && Walk(c)[k] == Current(d)
    decreases k
  {
    if k > 0 {
      var n := Advance(c);
      WalkAt(n, k - 1, d);
      ConsAt(Walk(c), Current(c), Walk(n), k, Current(d));
    }
  }

  /** The library's walk has the same number of chunks as the corrected one. */
  lemma {:induction false} WalkAsWrittenLength(c: Chunker)
    requires Inv(c)
    ensures Count(c) > 0 ==> |WalkAsWritten(c)| == Count(c) - c.index
    ensures Count(c) == 0 ==> WalkAsWritten(c) == [NoChunk]
    decreases Count(c) - c.index
  {
    if HasNextChunk(c) {
      var n := NextOffset(c);
      WalkAsWrittenLength(n);
      WalkAsWrittenUnfold(c, n);
    } else {
      AtEnd(c);
    }
  }

  /** Chunk k of the library's walk is the library's current chunk of the cursor d, k places further on. */
  lemma {:induction false} WalkAsWrittenAt(c: Chunker, k: nat, d: Chunker)
    requires Inv(c) && k < |WalkAsWritten(c)| && d == c.(index := c.index + k)
    ensures Inv(d) && WalkAsWritten(c)[k] == CurrentAsWritten(d)
    decreases k
  {
    if k == 0 {
      WalkAsWrittenAtHead(c, d);
    } else {
      var n := WalkAsWrittenNextCursor(c, k);
      WalkAsWrittenAt(n, k - 1, d);
      WalkAsWrittenAtStep(c, n, k, d);
    }
  }

  /** The first chunk of the library's walk is the library's current chunk. */
  lemma WalkAsWrittenAtHead(c: Chunker, d: Chunker)
    requires Inv(c) && d == c.(index := c.index + 0)
    ensures Inv(d) && WalkAsWritten(c)[0] == CurrentAsWritten(d)
  {
    assert d == c;
  }

  /** A library walk with more than k >= 1 chunks goes on to the next cursor, whose walk has more than k - 1. */
  lemma WalkAsWrittenNextCursor(c: Chunker, k: nat) returns (n: Chunker)
    requires Inv(c) && 0 < k < |WalkAsWritten(c)|
    ensures HasNextChunk(c) && n == c.(index := c.index + 1) && Inv(n) && k - 1 < |WalkAsWritten(n)|
  {
    WalkAsWrittenLength(c);
    n := c.(index := c.index + 1);
    assert Inv(n);
    WalkAsWrittenLength(n);
  }

  /** One step of WalkAsWrittenAt: chunk k - 1 of the walk from the next cursor is chunk k of this walk. */
  lemma WalkAsWrittenAtStep(c: Chunker, n: Chunker, k: nat, d: Chunker)
    requires Inv(c) && HasNextChunk(c) && n == c.(index := c.index + 1) && Inv(n) && Inv(d)
    requires 0 < k < |WalkAsWritten(c)| && k - 1 < |WalkAsWritten(n)| && WalkAsWritten(n)[k - 1] == CurrentAsWritten(d)
    ensures WalkAsWritten(c)[k] == CurrentAsWritten(d)
  {
    WalkAsWrittenUnfold(c, n);
    ConsAt(WalkAsWritten(c), CurrentAsWritten(c), WalkAsWritten(n), k, CurrentAsWritten(d));
  }
}

=== FILE: chunks.dfy ===
/**
  Shared vocabulary of the chunker: the two outcomes of a fetch, the
  configuration errors the library raises, and the chunk-count arithmetic
  both chunk sources use.
 */
module Chunks {

  /** The two InvalidArgumentException causes that can arise after construction inputs are typed. */
  datatype Error =
    | NegativeOffset             // validateOffset: an offset below zero
    | SizeTooSmall(minimum: nat) // setSize: a chunk size below the source's minimum

  datatype Result<+T> = Ok(value: T) | Failure(error: Error)

  /** A fetched chunk: `NoChunk` stands for PHP's `false`; a `Piece` may be empty. */
  datatype Chunk<+T> = NoChunk | Piece(content: T)

  datatype Option<+T> = None | Some(value: T)

  function Min(a: int, b: int): int { if a <= b then a else b }

  function Max(a: int, b: int): int { if a >= b then a else b }

  /** Integer ceiling of n / d, the `ceil($length / $this->size)` of both sources. */
  function CeilDiv(n: nat, d: nat): (q: nat)
    requires d >= 1
    ensures (q == 0) == (n == 0)
    ensures n <= q * d < n + d
  {
    var q := (n + d - 1) / d;
    var r := (n + d - 1) % d;
    assert q * d + r == n + d - 1;
    q
  }

  /** The chunk count for content of `length` units cut into chunks of `size` units. */
  function CountChunks(length: nat, size: nat): (n: nat)
    requires size >= 1
    ensures n == 0 <==> length == 0
    ensures length <= n * size < length + size
  {
    CeilDiv(length, size)
  }

  /** Chunk i exists exactly when it starts inside the content. */
  lemma ChunkIndexInRange(length: nat, size: nat, i: nat)
    requires size >= 1
    ensures i < CountChunks(length, size) <==> i * size < length
  {
    var n := CountChunks(length, size);
    if i < n {
      MulLeft(i, n - 1, size);
    } else {
      MulLeft(n, i, size);
    }
  }

  lemma MulLeft(a: nat, b: nat, c: nat)
    requires a <= b
    ensures a * c <= b * c
  {}

  /**
    A slice of a slice is a slice of the original: [i, j) of b[s..t] is
    [x, y) of b. The caller names x and y so the result matches its own terms.
   */
  lemma SliceOfSlice<T>(b: seq<T>, s: nat, t: nat, i: nat, j: nat, x: nat, y: nat)
    requires s <= t <= |b| && i <= j <= t - s
    requires x == s + i && y == s + j
    ensures b[s..t][i..j] == b[x..y]
  {
    var w := b[s..t];
    var v := w[i..j];
    assert |v| == j - i == |b[x..y]|;
    forall k | 0 <= k < j - i
      ensures v[k] == b[x..y][k]
    {
      assert v[k] == w[i + k] == b[s + i + k];
    }
  }

  /** validateOffset: a negative offset is a programming error; any other passes unchanged. */
  function ValidateOffset(offset: int): (r: Result<nat>)
    ensures r.Ok? <==> offset >= 0
    ensures r.Ok? ==> r.value == offset
    ensures r.Failure? ==> r.error == NegativeOffset
  {
    if offset < 0 then Failure(NegativeOffset) else Ok(offset)
  }

  /**
    The pieces `fetch` returns at offsets offset, offset + size, ... below
    `length`, joined in order; the first fetch that gives no piece ends the join.
   */
  function JoinPieces<T>(fetch: nat -> Result<Chunk<seq<T>>>, length: nat, size: nat, offset: nat): seq<T>
    requires size >= 1
    decreases length - offset
  {
    if offset >= length then []
    else
      match fetch(offset)
      case Ok(Piece(c)) => c + JoinPieces(fetch, length, size, offset + size)
      case _ => []
  }

  /**
    When the piece at every offset inside `whole` runs from start(offset) to
    start(offset + size), and start is the end of `whole` from the end of
    `whole` on, the pieces from an offset on join to the suffix of `whole`
    from start(offset): consecutive pieces meet, none overlaps or leaves a gap.
   */
  lemma {:induction false} JoinPiecesIsSuffix<T>(fetch: nat -> Result<Chunk<seq<T>>>, whole: seq<T>,
                                                 start: nat -> nat, size: nat, offset: nat)
    requires size >= 1
    requires forall o: nat :: start(o) <= |whole|
    requires forall o: nat :: o >= |whole| ==> start(o) == |whole|
    requires forall o: nat :: o < |whole| ==>
               start(o) <= start(o + size) && fetch(o) == Ok(Piece(whole[start(o)..start(o + size)]))
    ensures JoinPieces(fetch, |whole|, size, offset) == whole[start(offset)..]
    decreases |whole| - offset
  {
    if offset < |whole| {
      JoinPiecesIsSuffix(fetch, whole, start, size, offset + size);
      var a, e, piece := start(offset), start(offset + size), fetch(offset);
      assert a <= e && piece == Ok(Piece(whole[a..e]));
      assert whole[a..e] + whole[e..] == whole[a..];
    } else {
      assert whole[start(offset)..] == [];
    }
  }
}

=== FILE: file.dfy ===
/**
  The file chunk source (src/File.php). The file is an immutable byte string
  holding UTF-8; offsets and the chunk size are in bytes.

  A fetch reads a padded raw window and trims it to character boundaries.
  `GetChunkAsWritten` is the trim the library performs; `GetChunk` is the
  trim its documentation describes, which the navigation model uses. The two
  agree on chunk 0 of every well-formed file and on every chunk whose byte
  bounds fall on character boundaries (single-byte files in particular), and
  differ otherwise: see `AsWrittenSplitsCharacter`.
 */
module FileChunking {
  import opened Chunks
  import opened Utf8
  import MbString

  /** MAX_SIZE_CHARACTER: the widest character of any encoding, and the smallest chunk size accepted. */
  const MaxCharSize: nat := 4

  /** countChunks(): ceil(filesize / $size); an empty file has no chunks. */
  function CountChunks(file: seq<uint8>, size: nat): (n: nat)
    requires size >= 1
    ensures n == 0 <==> |file| == 0
    ensures |file| <= n * size < |file| + size
  {
    Chunks.CountChunks(|file|, size)
  }

  /**
    file_get_contents($name, false, null, $start, $length) on a file holding
    `file`: at most `length` bytes from `start`; a start beyond the end fails.
   */
  function Read(file: seq<uint8>, start: nat, length: nat): (r: Option<seq<uint8>>)
    ensures r.None? <==> start > |file|
    ensures r.Some? ==> |r.value| == Min(length, |file| - start)
    ensures r.Some? ==> r.value == file[start..start + |r.value|]
  {
    if start > |file| then None else Some(file[start..Min(start + length, |file|)])
  }

  /** max(0, $offset - MAX_SIZE_CHARACTER): where the raw window starts. */
  function WindowStart(offset: nat): (s: nat)
    ensures s <= offset <= s + MaxCharSize
    ensures s == 0 || s + MaxCharSize == offset
  {
    Max(0, offset - MaxCharSize)
  }

  /**
    getSingleByteChunk($offset): the raw window of `size` + MaxCharSize bytes
    from WindowStart(offset). It never starts before byte 0 and, whenever
    offset is inside the file, holds byte `offset`.
   */
  function SingleByteChunk(file: seq<uint8>, size: nat, offset: nat): (r: Option<seq<uint8>>)
    ensures r.None? <==> WindowStart(offset) > |file|
    ensures r.Some? ==> |r.value| <= size + MaxCharSize
    ensures r.Some? ==> r.value == file[WindowStart(offset)..Min(WindowStart(offset) + size + MaxCharSize, |file|)]
    ensures size >= 1 && offset < |file| ==> r.Some? && offset - WindowStart(offset) < |r.value|
  {
    Read(file, WindowStart(offset), size + MaxCharSize)
  }

  /** Where getMultiByteChunk starts its cut inside the window: 0 for the first chunk, MAX_SIZE_CHARACTER after. */
  function CutFrom(index: nat): nat {
    if index == 0 then 0 else MaxCharSize
  }

  /** getMultiByteChunk($window): mb_strcut of `size` bytes from CutFrom(index). */
  function MultiByteChunk(window: seq<uint8>, size: nat, index: nat): (r: seq<uint8>)
    ensures |r| <= size
  {
    MbString.StrCut(window, CutFrom(index), size)
  }

  /**
    getChunk($offset) as the library performs it. The cut start depends on
    the cursor's `index`, not on `offset`. A failed or empty raw read gives
    no chunk; any other read gives a piece, possibly empty.
   */
  function GetChunkAsWritten(file: seq<uint8>, size: nat, index: nat, offset: int): (r: Result<Chunk<seq<uint8>>>)
    ensures r.Failure? <==> offset < 0
    ensures r.Failure? ==> r.error == NegativeOffset
    ensures r.Ok? ==> (r.value.NoChunk? <==> WindowStart(offset) >= |file|)
    ensures r.Ok? && r.value.Piece? ==> |r.value.content| <= size
  {
    match ValidateOffset(offset)
    case Failure(e) => Failure(e)
    case Ok(o) =>
      match SingleByteChunk(file, size, o)
      case None => Ok(NoChunk)
      case Some(window) =>
        if |window| == 0 then Ok(NoChunk) else Ok(Piece(MultiByteChunk(window, size, index)))
  }

  /**
    The library's cut starts at file byte `offset`: it is the first chunk at
    offset 0, or a later chunk whose window starts MAX_SIZE_CHARACTER bytes
    before `offset`.
   */
  predicate CutStartsAtOffset(index: nat, offset: nat) {
    (index == 0 && offset == 0) || (index > 0 && offset >= MaxCharSize)
  }

  /** CutStartsAtOffset says exactly that the cut, made CutFrom(index) bytes into the window, lands on `offset`. */
  lemma CutStartIsOffset(index: nat, offset: nat)
    ensures CutStartsAtOffset(index, offset) <==> WindowStart(offset) + CutFrom(index) == offset
  {}

  /**
    When the cursor drives the fetch (offset == index * size) and size is at
    least MAX_SIZE_CHARACTER, the index-dependent cut start points at file
    byte `offset` exactly: the window starts MAX_SIZE_CHARACTER bytes early
    for every chunk but the first.
   */
  lemma CutFromMatchesOffset(size: nat, index: nat)
    requires size >= MaxCharSize
    ensures CutStartsAtOffset(index, index * size)
  {
    if index > 0 {
      assert index * size >= size;
    }
  }

  /** The raw window padded by MAX_SIZE_CHARACTER bytes on BOTH sides. */
  function PaddedWindow(file: seq<uint8>, size: nat, offset: nat): (r: Option<seq<uint8>>)
    ensures r.None? <==> WindowStart(offset) > |file|
    ensures r.Some? ==> r.value == file[WindowStart(offset)..Min(WindowStart(offset) + size + 2 * MaxCharSize, |file|)]
  {
    Read(file, WindowStart(offset), size + 2 * MaxCharSize)
  }

  /**
    The cut the documentation describes: the window range [from, from + length)
    with both ends moved left to the first byte of the character they fall in,
    so a character straddling the start is included and one straddling the end
    is left to the next chunk.
   */
  function BoundaryCut(w: seq<uint8>, from: nat, length: nat): (r: seq<uint8>)
    requires length >= MaxSequenceLength - 1
    ensures from > |w| ==> r == []
    ensures |r| <= length + (MaxSequenceLength - 1)
  {
    if from > |w| then [] else w[CharStart(w, from)..CharStart(w, Min(from + length, |w|))]
  }

  /**
    getChunk($offset) corrected: the window is padded on both sides and the
    cut starts at `offset` itself, so the fetch no longer depends on the cursor.
   */
  function GetChunk(file: seq<uint8>, size: nat, offset: int): (r: Result<Chunk<seq<uint8>>>)
    requires size >= MaxCharSize
    ensures r.Failure? <==> offset < 0
    ensures r.Failure? ==> r.error == NegativeOffset
    ensures r.Ok? ==> (r.value.NoChunk? <==> WindowStart(offset) >= |file|)
  {
    match ValidateOffset(offset)
    case Failure(e) => Failure(e)
    case Ok(o) =>
      match PaddedWindow(file, size, o)
      case None => Ok(NoChunk)
      case Some(window) =>
        if |window| == 0 then Ok(NoChunk)
        else Ok(Piece(BoundaryCut(window, o - WindowStart(o), size)))
  }

  /** The byte range of the file the corrected chunk at `offset` covers. */
  function ChunkStart(file: seq<uint8>, offset: nat): (a: nat)
    requires offset <= |file|
    ensures a <= offset
  {
    CharStart(file, offset)
  }

  function ChunkEnd(file: seq<uint8>, size: nat, offset: nat): (e: nat)
    requires offset <= |file|
    ensures e <= |file|
    ensures size >= MaxCharSize && offset < |file| ==> ChunkStart(file, offset) < e
  {
    CharStart(file, Min(offset + size, |file|))
  }

  /** The corrected chunk's byte range, and the file suffix it starts. */
  lemma ChunkSpan(file: seq<uint8>, size: nat, offset: nat) returns (a: nat, e: nat)
    requires size >= MaxCharSize && offset < |file|
    ensures a == ChunkStart(file, offset) == CharStart(file, offset) && e == ChunkEnd(file, size, offset)
    ensures a < e <= |file| && e - a <= size + (MaxSequenceLength - 1)
    ensures offset + size < |file| ==> e == CharStart(file, offset + size)
    ensures offset + size >= |file| ==> e == |file|
    ensures file[a..e] + file[e..] == file[a..]
  {
    a, e := ChunkStart(file, offset), ChunkEnd(file, size, offset);
    AppendSlices(file, a, e);
  }

  /**
    The corrected chunk at an offset inside the file is the non-empty file
    range from the start of the character holding `offset` to the start of
    the character holding `offset + size` (or the end of the file): the cut
    computed in the window agrees with the same cut computed on the whole file.
   */
  lemma ChunkInFile(file: seq<uint8>, size: nat, offset: nat)
    requires size >= MaxCharSize && offset < |file|
    ensures ChunkStart(file, offset) < ChunkEnd(file, size, offset)
    ensures GetChunk(file, size, offset) == Ok(Piece(file[ChunkStart(file, offset)..ChunkEnd(file, size, offset)]))
  {
    var s, t := PaddedWindowBounds(file, size, offset);
    WindowCutAgrees(file, size, offset, s, t);
  }

  /** The corrected fetch at an offset inside the file cuts the padded window [s, t). */
  lemma PaddedWindowBounds(file: seq<uint8>, size: nat, offset: nat) returns (s: nat, t: nat)
    requires size >= MaxCharSize && offset < |file|
    ensures s == WindowStart(offset) && t == Min(s + size + 2 * MaxCharSize, |file|)
    ensures s <= offset < t <= |file|
    ensures GetChunk(file, size, offset) == Ok(Piece(BoundaryCut(file[s..t], offset - s, size)))
  {
    s := WindowStart(offset);
    t := Min(s + size + 2 * MaxCharSize, |file|);
    assert PaddedWindow(file, size, offset) == Some(file[s..t]);
  }

  /**
    The cut computed in the padded window agrees with the same cut computed
    on the whole file, because the window reaches MAX_SIZE_CHARACTER bytes
    to the left of `offset` and past `offset + size`.
   */
  lemma WindowCutAgrees(file: seq<uint8>, size: nat, offset: nat, s: nat, t: nat)
    requires size >= MaxCharSize && offset < |file|
    requires s == WindowStart(offset) && t == Min(s + size + 2 * MaxCharSize, |file|)
    ensures ChunkStart(file, offset) < ChunkEnd(file, size, offset)
    ensures BoundaryCut(file[s..t], offset - s, size) == file[ChunkStart(file, offset)..ChunkEnd(file, size, offset)]
  {
    var w := file[s..t];
    var a, e := CutInWindow(w, offset - s, size);
    WindowStartAgrees(file, size, offset, s, t);
    WindowEndAgrees(file, size, offset, s, t);
    SliceOfSlice(file, s, t, a, e, ChunkStart(file, offset), ChunkEnd(file, size, offset));
  }

  /** The start of the corrected cut, found in the padded window, is the one found on the whole file. */
  lemma WindowStartAgrees(file: seq<uint8>, size: nat, offset: nat, s: nat, t: nat)
    requires size >= MaxCharSize && offset < |file|
    requires s == WindowStart(offset) && t == Min(s + size + 2 * MaxCharSize, |file|)
    ensures CharStart(file[s..t], offset - s) + s == ChunkStart(file, offset)
  {
    CharStartInWindow(file, s, t, offset);
  }

  /** The end of the corrected cut, found in the padded window, is the one found on the whole file. */
  lemma WindowEndAgrees(file: seq<uint8>, size: nat, offset: nat, s: nat, t: nat)
    requires size >= MaxCharSize && offset < |file|
    requires s == WindowStart(offset) && t == Min(s + size + 2 * MaxCharSize, |file|)
    ensures CharStart(file[s..t], Min(offset - s + size, |file[s..t]|)) + s == ChunkEnd(file, size, offset)
  {
    var last := Min(offset + size, |file|);
    assert Min(offset - s + size, |file[s..t]|) == last - s;
    CharStartInWindow(file, s, t, last);
  }

  /** BoundaryCut in terms of the two cut points it finds. */
  lemma CutInWindow(w: seq<uint8>, from: nat, length: nat) returns (a: nat, e: nat)
    requires length >= MaxSequenceLength - 1 && from <= |w|
    ensures a == CharStart(w, from) && e == CharStart(w, Min(from + length, |w|))
    ensures a <= e <= |w| && BoundaryCut(w, from, length) == w[a..e]
  {
    a, e := CharStart(w, from), CharStart(w, Min(from + length, |w|));
  }

  /**
    Past the end of the file the corrected fetch gives no chunk, or an empty
    piece when the padded window still reaches back into the file.
   */
  lemma FetchPastEnd(file: seq<uint8>, size: nat, offset: int)
    requires size >= MaxCharSize && offset >= |file|
    ensures GetChunk(file, size, offset) == Ok(NoChunk)
            || (GetChunk(file, size, offset).Ok? && GetChunk(file, size, offset).value == Piece([]))
  {
    var s := WindowStart(offset);
    if s < |file| {
      var w := file[s..];
      assert PaddedWindow(file, size, offset) == Some(w) by {
        assert Min(s + size + 2 * MaxCharSize, |file|) == |file|;
        assert file[s..|file|] == w;
      }
      var from: nat := offset - s;
      assert from >= |w|;
      if from == |w| {
        assert Min(from + size, |w|) == |w|;
        assert CharStart(w, |w|) == |w|;
      }
      assert BoundaryCut(w, from, size) == [];
    }
  }

  /**
    The corrected chunks at offsets offset, offset + size, ... up to the end
    of the file, joined in order; from offset 0 these are the chunks at
    indices 0 .. CountChunks - 1.
   */
  function JoinFrom(file: seq<uint8>, size: nat, offset: nat): seq<uint8>
    requires size >= MaxCharSize
  {
    JoinPieces(Fetches(file, size), |file|, size, offset)
  }

  /** The corrected getChunk as a function of the offset, for the join above. */
  function Fetches(file: seq<uint8>, size: nat): nat -> Result<Chunk<seq<uint8>>>
    requires size >= MaxCharSize
  {
    o => GetChunk(file, size, o)
  }

  /** Joining the corrected chunks from an offset inside the file gives the file from the character holding that offset on. */
  lemma JoinFromIsSuffix(file: seq<uint8>, size: nat, offset: nat)
    requires size >= MaxCharSize
    ensures JoinFrom(file, size, offset) == file[CharStart(file, Min(offset, |file|))..]
  {
    var start: nat -> nat := o => CharStart(file, Min(o, |file|));
    forall o: nat | o < |file|
      ensures start(o) <= start(o + size)
      ensures Fetches(file, size)(o) == Ok(Piece(file[start(o)..start(o + size)]))
    {
      FetchIsSpan(file, size, o, start(o), start(o + size));
    }
    JoinPiecesIsSuffix(Fetches(file, size), file, start, size, offset);
  }

  /** The corrected fetch at an offset inside the file, as the join sees it: the range between two character starts. */
  lemma FetchIsSpan(file: seq<uint8>, size: nat, o: nat, a: nat, e: nat)
    requires size >= MaxCharSize && o < |file|
    requires a == CharStart(file, o) && e == CharStart(file, Min(o + size, |file|))
    ensures a < e
    ensures Fetches(file, size)(o) == Ok(Piece(file[a..e]))
  {
    ChunkInFile(file, size, o);
  }

  lemma AppendSlices(b: seq<uint8>, a: nat, e: nat)
    requires a <= e <= |b|
    ensures b[a..e] + b[e..] == b[a..]
  {}

  /** Joining every corrected chunk in index order reproduces the file byte for byte. */
  lemma RoundTrip(file: seq<uint8>, size: nat)
    requires size >= MaxCharSize
    ensures JoinFrom(file, size, 0) == file
  {
    JoinFromIsSuffix(file, size, 0);
    if |file| > 0 {
      assert file[0..] == file;
    }
  }

  /**
    On a well-formed UTF-8 file every corrected chunk is itself well-formed
    UTF-8: it neither starts nor ends inside a character.
   */
  lemma ChunkWellFormed(file: seq<uint8>, size: nat, offset: nat)
    requires size >= MaxCharSize && offset < |file| && Valid(file)
    ensures GetChunk(file, size, offset).Ok?
    ensures GetChunk(file, size, offset).value.Piece?
    ensures Valid(GetChunk(file, size, offset).value.content)
  {
    ChunkInFile(file, size, offset);
    CharStartIsBoundary(file, offset);
    CharStartIsBoundary(file, Min(offset + size, |file|));
    ValidSlice(file, ChunkStart(file, offset), ChunkEnd(file, size, offset));
  }

  /**
    The library's chunk, stated on the whole file: with s = WindowStart(offset)
    and t the end of its raw window, it starts at `offset` moved left (not
    below s) off continuation bytes, and ends at t when `size` bytes from that
    start reach t, and otherwise at that point moved left (not below the
    start) off continuation bytes.
   */
  lemma AsWrittenInFile(file: seq<uint8>, size: nat, index: nat, offset: nat) returns (a: nat, e: nat, t: nat)
    requires size >= MaxCharSize && offset < |file| && CutStartsAtOffset(index, offset)
    ensures t == Min(WindowStart(offset) + size + MaxCharSize, |file|)
    ensures a == MoveLeft(file, offset, WindowStart(offset))
    ensures a <= e <= t
    ensures a + size >= t ==> e == t
    ensures a + size < t ==> e == MoveLeft(file, a + size, a)
    ensures GetChunkAsWritten(file, size, index, offset) == Ok(Piece(file[a..e]))
  {
    var s, a', e';
    s, t, a', e' := AsWrittenWindow(file, size, index, offset);
    a, e := a' + s, e' + s;
    SliceOfSlice(file, s, t, a', e', a, e);
    MbString.CutBoundsInWindow(file, s, t, offset, size);
  }

  /** The raw window [s, t) of the library's fetch, and the cut it makes in it. */
  lemma AsWrittenWindow(file: seq<uint8>, size: nat, index: nat, offset: nat) returns (s: nat, t: nat, a: nat, e: nat)
    requires size >= MaxCharSize && offset < |file| && CutStartsAtOffset(index, offset)
    ensures s == WindowStart(offset) && t == Min(s + size + MaxCharSize, |file|)
    ensures s <= offset < t
    ensures (a, e) == MbString.CutBounds(file[s..t], offset - s, size)
    ensures GetChunkAsWritten(file, size, index, offset) == Ok(Piece(file[s..t][a..e]))
  {
    s := WindowStart(offset);
    t := Min(s + size + MaxCharSize, |file|);
    assert SingleByteChunk(file, size, offset) == Some(file[s..t]);
    a, e := MbString.CutBounds(file[s..t], offset - s, size).0, MbString.CutBounds(file[s..t], offset - s, size).1;
  }

  /**
    The library's chunk equals the corrected one whenever the chunk's own
    byte bounds, offset and min(offset + size, filesize), fall on character
    boundaries.
   */
  lemma AsWrittenAgreesAtBoundaries(file: seq<uint8>, size: nat, index: nat, offset: nat)
    requires size >= MaxCharSize && offset < |file| && CutStartsAtOffset(index, offset)
    requires IsBoundary(file, offset)
    requires IsBoundary(file, Min(offset + size, |file|))
    ensures GetChunkAsWritten(file, size, index, offset) == GetChunk(file, size, offset)
  {
    ChunkInFile(file, size, offset);
    var a, e, t := AsWrittenInFile(file, size, index, offset);
    var m := Min(offset + size, |file|);
    MoveLeftAtBoundary(file, offset, WindowStart(offset));
    CharStartAtBoundary(file, offset);
    CharStartAtBoundary(file, m);
    AsWrittenWindowEnd(size, index, offset, |file|);
    if offset + size < t {
      MoveLeftAtBoundary(file, offset + size, offset);
    }
    assert a == offset == ChunkStart(file, offset);
    assert e == m == ChunkEnd(file, size, offset);
  }

  /** A file of single-byte characters only: no byte is a continuation byte. */
  predicate AllSingleByte(file: seq<uint8>) {
    forall i :: 0 <= i < |file| ==> file[i] < 0x80
  }

  /**
    On a file of single-byte characters both trims keep exactly the bytes
    [offset, offset + size), cut short at the end of the file.
   */
  lemma SingleByteChunks(file: seq<uint8>, size: nat, index: nat, offset: nat)
    requires size >= MaxCharSize && offset < |file| && CutStartsAtOffset(index, offset) && AllSingleByte(file)
    ensures GetChunk(file, size, offset) == Ok(Piece(file[offset..Min(offset + size, |file|)]))
    ensures GetChunkAsWritten(file, size, index, offset) == GetChunk(file, size, offset)
  {
    var m := Min(offset + size, |file|);
    assert IsBoundary(file, offset) && IsBoundary(file, m);
    ChunkInFile(file, size, offset);
    CharStartAtBoundary(file, offset);
    CharStartAtBoundary(file, m);
    AsWrittenAgreesAtBoundaries(file, size, index, offset);
  }

  /**
    The end of the library's raw window, when its cut starts at `offset`:
    either it lies at or before offset + size, and is then min(offset + size,
    filesize), or it lies past offset + size, which is then inside the file.
   */
  lemma AsWrittenWindowEnd(size: nat, index: nat, offset: nat, length: nat)
    requires size >= MaxCharSize && offset < length && CutStartsAtOffset(index, offset)
    ensures var t := Min(WindowStart(offset) + size + MaxCharSize, length);
            && (offset + size >= t ==> t == Min(offset + size, length))
            && (offset + size < t ==> offset + size == Min(offset + size, length))
  {
  }

  /** In well-formed UTF-8, moving left from q with any floor at or below q - 3 finds the character start. */
  lemma MoveLeftFindsCharStart(file: seq<uint8>, q: nat, floor: nat)
    requires Valid(file) && q <= |file|
    requires floor <= q && (floor == 0 || floor + (MaxSequenceLength - 1) <= q)
    ensures MoveLeft(file, q, floor) == CharStart(file, q)
  {
    var k := NearBoundary(file, q);
    var f := if q >= MaxSequenceLength - 1 then q - (MaxSequenceLength - 1) else 0;
    MoveLeftPastBoundary(file, q, floor, f, k);
  }

  /** On a well-formed UTF-8 file the library's first chunk equals the corrected one. */
  lemma AsWrittenFirstChunkAgrees(file: seq<uint8>, size: nat)
    requires size >= MaxCharSize && 0 < |file| && Valid(file)
    ensures GetChunkAsWritten(file, size, 0, 0) == GetChunk(file, size, 0)
  {
    ChunkInFile(file, size, 0);
    AsWrittenFirstChunk(file, size);
  }

  /** The library's first chunk of a well-formed UTF-8 file, as a range of the file. */
  lemma AsWrittenFirstChunk(file: seq<uint8>, size: nat)
    requires size >= MaxCharSize && 0 < |file| && Valid(file)
    ensures GetChunkAsWritten(file, size, 0, 0) == Ok(Piece(file[ChunkStart(file, 0)..ChunkEnd(file, size, 0)]))
  {
    var a, e, t := AsWrittenInFile(file, size, 0, 0);
    assert WindowStart(0) == 0 && a == 0 == ChunkStart(file, 0);
    var e' := FirstChunkEnd(file, size, a, t);
  }

  /** The end of the first chunk, as the library's cut finds it, is the corrected one on well-formed UTF-8. */
  lemma FirstChunkEnd(file: seq<uint8>, size: nat, a: nat, t: nat) returns (e: nat)
    requires size >= MaxCharSize && 0 < |file| && Valid(file)
    requires a == 0 && t == Min(size + MaxCharSize, |file|)
    ensures e == ChunkEnd(file, size, 0)
    ensures a + size >= t ==> e == t
    ensures a + size < t ==> e == MoveLeft(file, a + size, a)
  {
    if size < |file| {
      MoveLeftFindsCharStart(file, size, 0);
      e := CharStart(file, size);
    } else {
      e := |file|;
    }
  }

  /**
    On a well-formed UTF-8 file the library's chunk begins exactly where the
    corrected one does, at the first byte of the character holding byte
    `offset`; so it never begins with a continuation byte.
   */
  lemma AsWrittenStartsAtCharStart(file: seq<uint8>, size: nat, index: nat, offset: nat) returns (c: seq<uint8>)
    requires size >= MaxCharSize && offset < |file| && CutStartsAtOffset(index, offset) && Valid(file)
    ensures GetChunkAsWritten(file, size, index, offset) == Ok(Piece(c))
    ensures CharStart(file, offset) + |c| <= |file|
    ensures c == file[CharStart(file, offset)..CharStart(file, offset) + |c|]
    ensures |c| > 0 ==> !IsContinuation(c[0])
  {
    var a, e, t := AsWrittenInFile(file, size, index, offset);
    AsWrittenStart(file, size, index, offset, a);
    c := file[a..e];
    assert c == file[a..a + |c|];
    if 0 < |c| {
      assert c[0] == file[a];
    }
  }

  /** Where the library's cut starts in a well-formed UTF-8 file: the first byte of the character holding `offset`. */
  lemma AsWrittenStart(file: seq<uint8>, size: nat, index: nat, offset: nat, a: nat)
    requires size >= MaxCharSize && offset < |file| && CutStartsAtOffset(index, offset) && Valid(file)
    requires a == MoveLeft(file, offset, WindowStart(offset))
    ensures a == CharStart(file, offset) && IsBoundary(file, a)
  {
    MoveLeftFindsCharStart(file, offset, WindowStart(offset));
    CharStartIsBoundary(file, offset);
  }

  /** The library's chunks at indices i, i+1, ..., CountChunks - 1, each fetched with its own index, joined in order. */
  function JoinFromAsWritten(file: seq<uint8>, size: nat, i: nat): seq<uint8>
    requires size >= 1
    decreases CountChunks(file, size) - i
  {
    if i >= CountChunks(file, size) then []
    else
      match GetChunkAsWritten(file, size, i, i * size)
      case Ok(Piece(c)) => c + JoinFromAsWritten(file, size, i + 1)
      case _ => []
  }

  /**
    Inside the file, the library's join from index i is its chunk at index i
    followed by the join from i + 1. The offset o and the index next are
    parameters only to keep the callers' proofs cheap for the solver.
   */
  lemma JoinFromAsWrittenStep(file: seq<uint8>, size: nat, i: nat, o: nat, next: nat) returns (x: seq<uint8>)
    requires size >= 1 && i < CountChunks(file, size) && o == i * size && next == i + 1
    ensures GetChunkAsWritten(file, size, i, o) == Ok(Piece(x))
    ensures JoinFromAsWritten(file, size, i) == x + JoinFromAsWritten(file, size, next)
  {
    ChunkIndexInRange(|file|, size, i);
    x := GetChunkAsWritten(file, size, i, o).value.content;
  }

  /** "aaaaaa€": six ASCII bytes, then the three bytes of U+20AC. */
  const SplitExample: seq<uint8> := [0x61, 0x61, 0x61, 0x61, 0x61, 0x61, 0xE2, 0x82, 0xAC]

  /**
    With size 4 the library's second chunk of the well-formed file "aaaaaa€"
    is "aa" followed by the first two bytes of "€", which is not UTF-8; the
    third chunk repeats those bytes, so the chunks joined are 11 bytes long
    and are not the file. The corrected second chunk is "aa".
   */
  lemma AsWrittenSplitsCharacter()
    ensures Valid(SplitExample)
    ensures GetChunkAsWritten(SplitExample, 4, 1, 4) == Ok(Piece(SplitExample[4..8]))
    ensures !Valid(SplitExample[4..8])
    ensures GetChunkAsWritten(SplitExample, 4, 2, 8) == Ok(Piece(SplitExample[6..9]))
    ensures |JoinFromAsWritten(SplitExample, 4, 0)| == 11
    ensures JoinFromAsWritten(SplitExample, 4, 0) != SplitExample
    ensures GetChunk(SplitExample, 4, 4) == Ok(Piece(SplitExample[4..6]))
  {
    SplitExampleValid();
    SplitExampleSecondPiece();
    SplitExampleJoin();
    SplitExampleCorrected();
  }

  lemma SplitExampleValid()
    ensures Valid(SplitExample)
  {
    var f := SplitExample;
    assert StartsWithChar(f[6..], 3);
    assert Valid(f[9..]);
    assert Valid(f[6..]);
    assert f[5..][1..] == f[6..] && Valid(f[5..]);
    assert f[4..][1..] == f[5..] && Valid(f[4..]);
    assert f[3..][1..] == f[4..] && Valid(f[3..]);
    assert f[2..][1..] == f[3..] && Valid(f[2..]);
    assert f[1..][1..] == f[2..] && Valid(f[1..]);
    assert f[0..] == f;
  }

  /** The second piece ends two bytes into the three-byte "€", so it is not UTF-8. */
  lemma SplitExampleSecondPiece()
    ensures !Valid(SplitExample[4..8])
  {
    var piece := SplitExample[4..8];
    assert piece == [0x61, 0x61, 0xE2, 0x82];
    var rest := piece[2..];
    assert SequenceLength(rest[0]) == 3 && |rest| == 2;
    assert !Valid(rest);
    assert piece[1..][1..] == rest && SequenceLength(piece[1]) == 1;
    assert !Valid(piece[1..]);
    assert SequenceLength(piece[0]) == 1;
  }

  /** The library's three chunks of "aaaaaa€" at size 4 cover bytes [0, 4), [4, 8) and [6, 9). */
  lemma SplitExampleJoin()
    ensures GetChunkAsWritten(SplitExample, 4, 1, 4) == Ok(Piece(SplitExample[4..8]))
    ensures GetChunkAsWritten(SplitExample, 4, 2, 8) == Ok(Piece(SplitExample[6..9]))
    ensures JoinFromAsWritten(SplitExample, 4, 0) == SplitExample[0..4] + SplitExample[4..8] + SplitExample[6..9]
  {
    var f := SplitExample;
    var a1, e1, t1 := AsWrittenInFile(f, 4, 1, 4);
    assert a1 == 4 && e1 == 8;
    var a2, e2, t2 := AsWrittenInFile(f, 4, 2, 8);
    assert a2 == 6 && e2 == 9;
    var a0, e0, t0 := AsWrittenInFile(f, 4, 0, 0);
    assert a0 == 0 && e0 == 4;
    assert CountChunks(f, 4) == 3;
    assert JoinFromAsWritten(f, 4, 3) == [];
  }

  /** The corrected second chunk of "aaaaaa€" at size 4 is "aa". */
  lemma SplitExampleCorrected()
    ensures GetChunk(SplitExample, 4, 4) == Ok(Piece(SplitExample[4..6]))
  {
    ChunkInFile(SplitExample, 4, 4);
  }

  /** "aaaaaa€bcdefgh": six ASCII bytes, the three bytes of U+20AC, then seven ASCII bytes. */
  const GapExample: seq<uint8> :=
    [0x61, 0x61, 0x61, 0x61, 0x61, 0x61, 0xE2, 0x82, 0xAC, 0x62, 0x63, 0x64, 0x65, 0x66, 0x67, 0x68]

  /**
    With size 4 the library's chunks of the well-formed file "aaaaaa€bcdefgh"
    cover bytes [0, 4), [4, 8), [6, 10) and [12, 16): bytes 6 and 7 come
    twice and "cd" (bytes 10 and 11) never comes. The joined chunks are as
    long as the file and still are not the file; the corrected chunks join
    to the file.
   */
  lemma AsWrittenDropsBytes()
    ensures Valid(GapExample)
    ensures JoinFromAsWritten(GapExample, 4, 0)
            == GapExample[0..4] + GapExample[4..8] + GapExample[6..10] + GapExample[12..16]
    ensures |JoinFromAsWritten(GapExample, 4, 0)| == |GapExample|
    ensures GapExample[10..12] == [0x63, 0x64]
    ensures 0x63 !in JoinFromAsWritten(GapExample, 4, 0) && 0x64 !in JoinFromAsWritten(GapExample, 4, 0)
    ensures JoinFrom(GapExample, 4, 0) == GapExample
  {
    GapExampleValid();
    GapExampleJoin();
    GapExampleMissing(JoinFromAsWritten(GapExample, 4, 0));
    RoundTrip(GapExample, 4);
  }

  /** The four library chunks of "aaaaaa€bcdefgh", joined, hold neither "c" nor "d". */
  lemma GapExampleMissing(j: seq<uint8>)
    requires j == GapExample[0..4] + GapExample[4..8] + GapExample[6..10] + GapExample[12..16]
    ensures |j| == |GapExample| && GapExample[10..12] == [0x63, 0x64]
    ensures 0x63 !in j && 0x64 !in j
  {
    var f := GapExample;
    assert f[0..4] == [0x61, 0x61, 0x61, 0x61] && f[4..8] == [0x61, 0x61, 0xE2, 0x82];
    assert f[6..10] == [0xE2, 0x82, 0xAC, 0x62] && f[12..16] == [0x65, 0x66, 0x67, 0x68];
  }

  lemma GapExampleValid()
    ensures Valid(GapExample)
  {
    var f := GapExample;
    AsciiPrefixValid(f[9..], 7);
    assert StartsWithChar(f[6..], 3) && f[6..][3..] == f[9..];
    assert f[6..] == f[6..][0..];
    AsciiPrefixValid(f, 6);
  }

  /** The library's four chunks of "aaaaaa€bcdefgh" at size 4, each fetched with its own index. */
  lemma GapExampleJoin()
    ensures JoinFromAsWritten(GapExample, 4, 0)
            == GapExample[0..4] + GapExample[4..8] + GapExample[6..10] + GapExample[12..16]
  {
    var f := GapExample;
    var a0, e0, t0 := AsWrittenInFile(f, 4, 0, 0);
    assert a0 == 0 && e0 == 4;
    var a1, e1, t1 := AsWrittenInFile(f, 4, 1, 4);
    assert a1 == 4 && e1 == 8;
    var a2, e2, t2 := AsWrittenInFile(f, 4, 2, 8);
    assert a2 == 6 && e2 == 10;
    var a3, e3, t3 := AsWrittenInFile(f, 4, 3, 12);
    assert a3 == 12 && e3 == 16;
    assert CountChunks(f, 4) == 4;
    assert JoinFromAsWritten(f, 4, 4) == [];
  }
}

=== FILE: mbstring.dfy ===
/**
  The two mbstring primitives the chunk sources call, fixed to UTF-8:
  `mb_substr` on a character sequence and `mb_strcut` on a byte string.
 */
module MbString {
  import opened Chunks
  import opened Utf8

  /**
    mb_substr($text, $start, $length) for a start inside the text: the
    characters from `start`, as many as `length` allows and the text holds.
   */
  function Substr(text: seq<char>, start: nat, length: nat): (r: seq<char>)
    requires start <= |text|
    ensures |r| == Min(length, |text| - start)
    ensures r == text[start..start + |r|]
  {
    text[start..Min(start + length, |text|)]
  }

  /**
    The byte range [a, e) that mb_strcut($w, $from, $length, 'UTF-8') keeps
    when `from` lies inside w. The start moves left off continuation bytes
    (never below 0); the end is `length` bytes after the MOVED start, taken
    as the end of w when that reaches or passes it, and otherwise moved left
    off continuation bytes (never below the start).
   */
  function CutBounds(w: seq<uint8>, from: nat, length: nat): (r: (nat, nat))
    requires from <= |w|
    ensures r.0 <= from && r.0 <= r.1 <= |w|
    ensures r.1 - r.0 <= length
    ensures r.0 + length >= |w| ==> r.1 == |w|
  {
    var a := MoveLeft(w, from, 0);
    if a + length >= |w| then (a, |w|) else (a, MoveLeft(w, a + length, a))
  }

  /**
    What mb_strcut keeps: the start is the nearest cut point at or left of
    `from` (or 0) with only continuation bytes passed over; the end, unless
    it is the end of w, is the nearest cut point at or left of start + length
    (or the start), again passing over continuation bytes only.
   */
  lemma CutBoundsAtCutPoints(w: seq<uint8>, from: nat, length: nat)
    requires from <= |w|
    ensures var r := CutBounds(w, from, length);
            && (r.0 == 0 || IsBoundary(w, r.0))
            && (forall k :: r.0 < k <= from ==> !IsBoundary(w, k))
            && (r.0 + length < |w| ==> r.1 == r.0 || IsBoundary(w, r.1))
            && (r.0 + length < |w| ==> forall k :: r.1 < k <= r.0 + length ==> !IsBoundary(w, k))
  {
    var a := MoveLeft(w, from, 0);
    MoveLeftSkipsOnlyContinuations(w, from, 0);
    if a + length < |w| {
      MoveLeftSkipsOnlyContinuations(w, a + length, a);
    }
  }

  /** mb_strcut($w, $from, $length, 'UTF-8'): a start past the end gives the empty string. */
  function StrCut(w: seq<uint8>, from: nat, length: nat): (r: seq<uint8>)
    ensures from > |w| ==> r == []
    ensures from <= |w| ==> r == w[CutBounds(w, from, length).0..CutBounds(w, from, length).1]
    ensures |r| <= length
  {
    if from > |w| then [] else
    var (a, e) := CutBounds(w, from, length);
    w[a..e]
  }

  /**
    mb_strcut on a window b[s..t] of a larger string, restated on b: the
    bounds it keeps are the ones the same search finds on b itself, with the
    start never moving below s and the end taken as t when it reaches it.
   */
  lemma CutBoundsInWindow(b: seq<uint8>, s: nat, t: nat, q: nat, length: nat)
    requires s <= q < t <= |b|
    ensures var r := CutBounds(b[s..t], q - s, length);
            && r.0 + s == MoveLeft(b, q, s)
            && (r.0 + s + length >= t ==> r.1 + s == t)
            && (r.0 + s + length < t ==> r.1 + s == MoveLeft(b, r.0 + s + length, r.0 + s))
  {
    var r := CutBounds(b[s..t], q - s, length);
    MoveLeftInWindow(b, s, t, q, s);
    if r.0 + s + length < t {
      MoveLeftInWindow(b, s, t, r.0 + s + length, r.0 + s);
    }
  }
}

=== FILE: scenarios.dfy ===
/**
  The behaviours the library's own test suite checks, stated on the model:
  walking short texts and files chunk by chunk, the empty source, and the
  rejected sizes. The file cases use UTF-8 bytes, with "¢" = C2 A2 and
  "€" = E2 82 AC.
 */
module Scenarios {
  import opened Chunks
  import opened Utf8
  import FileChunking
  import opened Navigation

  /** Text "foo" in chunks of one character: "f", "o", "o", then nothing; previous() walks back. */
  lemma TextFoo()
    ensures New(Text("foo"), 1).Ok?
    ensures var c0 := New(Text("foo"), 1).value;
            var (c1, x1) := Next(c0);
            var (c2, x2) := Next(c1);
            && Count(c0) == 3
            && Previous(c0) == (c0, NoChunk)
            && Current(c0) == Piece(Chars("f"))
            && x1 == Piece(Chars("o")) && x2 == Piece(Chars("o"))
            && Next(c2) == (c2, NoChunk)
            && Previous(c2) == (c1, Piece(Chars("o")))
            && Previous(c1) == (c0, Piece(Chars("f")))
  {
    var c0 := New(Text("foo"), 1).value;
    var c1 := c0.(index := 1);
    var c2 := c0.(index := 2);
    assert Count(c0) == 3;
    assert HasNextChunk(c0) && HasNextChunk(c1) && !HasNextChunk(c2);
    assert Next(c0).0 == c1 && Next(c1).0 == c2;
    var t := "foo";
    assert |t| == 3 && t[0] == 'f' && t[1] == 'o' && t[2] == 'o';
    assert t[0..1] == "f";
    assert t[1..2] == "o";
    assert t[2..3] == "o";
  }

  /**
    Text "¢ €" in chunks of one character: one character per chunk, whatever
    its width in bytes, forward and back again.
  */
  lemma TextMultiByte()
    ensures New(Text("¢ €"), 1).Ok?
    ensures var c0 := New(Text("¢ €"), 1).value;
            var (c1, x1) := Next(c0);
            var (c2, x2) := Next(c1);
            && Count(c0) == 3
            && Previous(c0) == (c0, NoChunk)
            && Current(c0) == Piece(Chars("¢"))
            && x1 == Piece(Chars(" "))
            && x2 == Piece(Chars("€"))
            && Next(c2) == (c2, NoChunk)
            && Previous(c2) == (c1, Piece(Chars(" ")))
            && Previous(c1) == (c0, Piece(Chars("¢")))
  {
    var t := "¢ €";
    var c0 := New(Text(t), 1).value;
    var c1 := c0.(index := 1);
    var c2 := c0.(index := 2);
    assert Count(c0) == 3;
    assert HasNextChunk(c0) && HasNextChunk(c1) && !HasNextChunk(c2);
    assert Next(c0).0 == c1 && Next(c1).0 == c2;
    assert |t| == 3 && t[0] == '¢' && t[1] == ' ' && t[2] == '€';
    assert t[0..1] == "¢";
    assert t[1..2] == " ";
    assert t[2..3] == "€";
  }

  /** An empty text has no chunks: current, next and previous all give none. */
  lemma EmptyText()
    ensures var t := New(Text(""), DefaultTextSize).value;
            && Count(t) == 0 && !HasChunk(t) && !HasChunks(t) && !HasNextChunk(t) && !HasPreviousChunk(t)
            && Current(t) == NoChunk && Next(t) == (t, NoChunk) && Previous(t) == (t, NoChunk)
  {
    var t := New(Text(""), DefaultTextSize).value;
    assert t == Chunker(Text(""), DefaultTextSize, 0);
    assert Count(t) == 0;
  }

  /** An empty file has no chunks either. */
  lemma EmptyFile()
    ensures var f := New(File([]), DefaultFileSize).value;
            && Count(f) == 0 && !HasChunk(f) && !HasChunks(f) && !HasNextChunk(f) && !HasPreviousChunk(f)
            && Current(f) == NoChunk && Next(f) == (f, NoChunk) && Previous(f) == (f, NoChunk)
  {
    var f := New(File([]), DefaultFileSize).value;
    assert f == Chunker(File([]), DefaultFileSize, 0);
    assert Count(f) == 0;
  }

  /** Sizes below the minimum are rejected: zero or negative for text, below four bytes for a file. */
  lemma RejectedSizes()
    ensures New(Text("foo"), 0) == Failure(SizeTooSmall(1))
    ensures New(Text("foo"), -1) == Failure(SizeTooSmall(1))
    ensures New(File([0x66, 0x6F, 0x6F]), 1) == Failure(SizeTooSmall(4))
    ensures New(File([0x66, 0x6F, 0x6F]), 4).Ok?
  {
  }

  /** "foo bar baz qux quux corge": 26 single-byte characters. */
  const WordsFile: seq<uint8> :=
    [0x66, 0x6F, 0x6F, 0x20, 0x62, 0x61, 0x72, 0x20, 0x62, 0x61, 0x7A, 0x20, 0x71,
     0x75, 0x78, 0x20, 0x71, 0x75, 0x75, 0x78, 0x20, 0x63, 0x6F, 0x72, 0x67, 0x65]

  /**
    The single-byte test file in chunks of 8 bytes: four chunks, "foo bar ",
    "baz qux ", "quux cor" and "ge", the same whichever trim is used.
   */
  lemma WordsFileChunks()
    ensures FileChunking.CountChunks(WordsFile, 8) == 4
    ensures FileChunking.GetChunkAsWritten(WordsFile, 8, 0, 0) == Ok(Piece(WordsFile[0..8]))
    ensures FileChunking.GetChunkAsWritten(WordsFile, 8, 1, 8) == Ok(Piece(WordsFile[8..16]))
    ensures FileChunking.GetChunkAsWritten(WordsFile, 8, 2, 16) == Ok(Piece(WordsFile[16..24]))
    ensures FileChunking.GetChunkAsWritten(WordsFile, 8, 3, 24) == Ok(Piece(WordsFile[24..26]))
  {
    var f := WordsFile;
    assert FileChunking.AllSingleByte(f);
    FileChunking.SingleByteChunks(f, 8, 0, 0);
    FileChunking.SingleByteChunks(f, 8, 1, 8);
    FileChunking.SingleByteChunks(f, 8, 2, 16);
    FileChunking.SingleByteChunks(f, 8, 3, 24);
  }

  /**
    The single-byte test file in one chunk as long as the file: one chunk,
    which is the whole file, and nothing after it.
   */
  lemma WordsFileOneChunk()
    ensures New(File(WordsFile), |WordsFile|).Ok?
    ensures var c := New(File(WordsFile), |WordsFile|).value;
            && Count(c) == 1 && HasChunk(c) && HasChunks(c) && !HasNextChunk(c)
            && CurrentAsWritten(c) == Piece(Bytes(WordsFile))
  {
    var c := New(File(WordsFile), |WordsFile|).value;
    WordsWholeChunk();
    var o := CurrentAsWrittenIsFetch(c);
    assert FetchAsWritten(c.source, c.size, c.index, o) == Ok(Piece(Bytes(WordsFile)));
    assert Count(c) == 1;
  }

  lemma WordsWholeChunk()
    ensures FileChunking.GetChunkAsWritten(WordsFile, 26, 0, 0) == Ok(Piece(WordsFile))
  {
    var a, e, t := FileChunking.AsWrittenInFile(WordsFile, 26, 0, 0);
    assert a == 0 && e == 26;
    assert WordsFile[0..26] == WordsFile;
  }

  /** "¢€": a two-byte and a three-byte character, 5 bytes of UTF-8. */
  const CentEuroFile: seq<uint8> := [0xC2, 0xA2, 0xE2, 0x82, 0xAC]

  /**
    "¢€" in chunks of 4 bytes: two chunks, "¢" and then "€". Here the
    library's fetch keeps each character whole, and its walk gives back the
    file.
   */
  lemma CentEuroFileChunks()
    ensures FileChunking.CountChunks(CentEuroFile, 4) == 2
    ensures FileChunking.GetChunkAsWritten(CentEuroFile, 4, 0, 0) == Ok(Piece([0xC2, 0xA2]))
    ensures FileChunking.GetChunkAsWritten(CentEuroFile, 4, 1, 4) == Ok(Piece([0xE2, 0x82, 0xAC]))
    ensures New(File(CentEuroFile), 4).Ok?
    ensures BytesOf(WalkAsWritten(New(File(CentEuroFile), 4).value)) == CentEuroFile
  {
    CentEuroPieces();
    CentEuroJoin();
    WalkAsWrittenJoins(New(File(CentEuroFile), 4).value);
  }

  lemma CentEuroPieces()
    ensures FileChunking.CountChunks(CentEuroFile, 4) == 2
    ensures FileChunking.GetChunkAsWritten(CentEuroFile, 4, 0, 0) == Ok(Piece([0xC2, 0xA2]))
    ensures FileChunking.GetChunkAsWritten(CentEuroFile, 4, 1, 4) == Ok(Piece([0xE2, 0x82, 0xAC]))
  {
    var f := CentEuroFile;
    var a0, e0, t0 := FileChunking.AsWrittenInFile(f, 4, 0, 0);
    assert a0 == 0 && e0 == 2;
    assert f[0..2] == [0xC2, 0xA2];
    var a1, e1, t1 := FileChunking.AsWrittenInFile(f, 4, 1, 4);
    assert a1 == 2 && e1 == 5;
    assert f[2..5] == [0xE2, 0x82, 0xAC];
    assert FileChunking.CountChunks(f, 4) == 2;
  }

  lemma CentEuroJoin()
    ensures FileChunking.JoinFromAsWritten(CentEuroFile, 4, 0) == CentEuroFile
  {
    var f := CentEuroFile;
    CentEuroPieces();
    var x0 := FileChunking.JoinFromAsWrittenStep(f, 4, 0, 0, 1);
    var x1 := FileChunking.JoinFromAsWrittenStep(f, 4, 1, 4, 2);
    assert FileChunking.JoinFromAsWritten(f, 4, 2) == [];
    assert [0xC2, 0xA2] + [0xE2, 0x82, 0xAC] == f;
  }

  /** "foo ¢ bar € baz ¢ €": 25 bytes of UTF-8. */
  const MixedFile: seq<uint8> :=
    [0x66, 0x6F, 0x6F, 0x20, 0xC2, 0xA2, 0x20, 0x62, 0x61, 0x72, 0x20, 0xE2, 0x82,
     0xAC, 0x20, 0x62, 0x61, 0x7A, 0x20, 0xC2, 0xA2, 0x20, 0xE2, 0x82, 0xAC]

  /**
    The multi-byte test file in chunks of 8 bytes. The library's first two
    chunks are the expected "foo ¢ b" and "ar € b"; its third is "az ¢ "
    followed by the first two bytes of the last "€", where the test suite
    expects "az ¢ ", which is the corrected third chunk; its fourth repeats
    those two bytes.
   */
  lemma MixedFileChunks()
    ensures FileChunking.CountChunks(MixedFile, 8) == 4
    ensures FileChunking.GetChunkAsWritten(MixedFile, 8, 0, 0) == Ok(Piece(MixedFile[0..8]))
    ensures FileChunking.GetChunkAsWritten(MixedFile, 8, 1, 8) == Ok(Piece(MixedFile[8..16]))
    ensures FileChunking.GetChunkAsWritten(MixedFile, 8, 2, 16) == Ok(Piece(MixedFile[16..24]))
    ensures !Valid(MixedFile[16..24])
    ensures FileChunking.GetChunk(MixedFile, 8, 16) == Ok(Piece(MixedFile[16..22]))
    ensures FileChunking.GetChunkAsWritten(MixedFile, 8, 3, 24) == Ok(Piece(MixedFile[22..25]))
  {
    MixedFirstChunks();
    MixedThirdChunk();
    MixedThirdPieceInvalid();
    MixedCorrectedThird();
    MixedLastChunk();
  }

  lemma MixedFirstChunks()
    ensures FileChunking.GetChunkAsWritten(MixedFile, 8, 0, 0) == Ok(Piece(MixedFile[0..8]))
    ensures FileChunking.GetChunkAsWritten(MixedFile, 8, 1, 8) == Ok(Piece(MixedFile[8..16]))
  {
    var a0, e0, t0 := FileChunking.AsWrittenInFile(MixedFile, 8, 0, 0);
    assert a0 == 0 && e0 == 8;
    var a1, e1, t1 := FileChunking.AsWrittenInFile(MixedFile, 8, 1, 8);
    assert a1 == 8 && e1 == 16;
  }

  lemma MixedThirdChunk()
    ensures FileChunking.GetChunkAsWritten(MixedFile, 8, 2, 16) == Ok(Piece(MixedFile[16..24]))
  {
    var a2, e2, t2 := FileChunking.AsWrittenInFile(MixedFile, 8, 2, 16);
    assert a2 == 16 && e2 == 24;
  }

  lemma MixedLastChunk()
    ensures FileChunking.GetChunkAsWritten(MixedFile, 8, 3, 24) == Ok(Piece(MixedFile[22..25]))
  {
    var a3, e3, t3 := FileChunking.AsWrittenInFile(MixedFile, 8, 3, 24);
    assert a3 == 22 && e3 == 25;
  }

  lemma MixedCorrectedThird()
    ensures FileChunking.GetChunk(MixedFile, 8, 16) == Ok(Piece(MixedFile[16..22]))
  {
    FileChunking.ChunkInFile(MixedFile, 8, 16);
    assert FileChunking.ChunkStart(MixedFile, 16) == 16 && FileChunking.ChunkEnd(MixedFile, 8, 16) == 22;
  }

  /** "az ¢ " followed by E2 82 is not UTF-8: the last character is cut short. */
  lemma MixedThirdPieceInvalid()
    ensures !Valid(MixedFile[16..24])
  {
    var p := MixedFile[16..24];
    assert p == [0x61, 0x7A, 0x20, 0xC2, 0xA2, 0x20, 0xE2, 0x82];
    var tail := p[6..];
    assert SequenceLength(tail[0]) == 3 && |tail| == 2 && !Valid(tail);
    assert p[5..][1..] == tail && SequenceLength(p[5]) == 1 && !Valid(p[5..]);
    assert p[3..][2..] == p[5..] && SequenceLength(p[3]) == 2 && !Valid(p[3..]);
    assert p[2..][1..] == p[3..] && SequenceLength(p[2]) == 1 && !Valid(p[2..]);
    assert p[1..][1..] == p[2..] && SequenceLength(p[1]) == 1 && !Valid(p[1..]);
    assert SequenceLength(p[0]) == 1;
  }
}

=== FILE: text.dfy ===
/**
  The text chunk source (src/Text.php): a character sequence cut into
  pieces of `size` characters at character offsets.
 */
module TextChunking {
  import opened Chunks
  import MbString

  /** countChunks(): ceil(mb_strlen($text) / $size). */
  function CountChunks(text: seq<char>, size: nat): (n: nat)
    requires size >= 1
    ensures n == 0 <==> |text| == 0
    ensures |text| <= n * size < |text| + size
  {
    Chunks.CountChunks(|text|, size)
  }

  /**
    getChunk($offset): a negative offset is rejected; an offset at or past the
    end gives no chunk; otherwise the next (at most) `size` characters.
   */
  function GetChunk(text: seq<char>, size: nat, offset: int): (r: Result<Chunk<seq<char>>>)
    requires size >= 1
    ensures r.Failure? <==> offset < 0
    ensures r.Failure? ==> r.error == NegativeOffset
    ensures r.Ok? ==> (r.value.NoChunk? <==> offset >= |text|)
    ensures r.Ok? && r.value.Piece? ==>
              && 1 <= |r.value.content| <= size
              && offset + |r.value.content| <= |text|
              && r.value.content == text[offset..offset + |r.value.content|]
              && (|r.value.content| == size || offset + |r.value.content| == |text|)
  {
    match ValidateOffset(offset)
    case Failure(e) => Failure(e)
    case Ok(o) =>
      if o < |text| then Ok(Piece(MbString.Substr(text, o, size))) else Ok(NoChunk)
  }

  /** getChunk as a function of the offset, for the join below. */
  function Fetches(text: seq<char>, size: nat): nat -> Result<Chunk<seq<char>>>
    requires size >= 1
  {
    o => GetChunk(text, size, o)
  }

  /**
    The chunks at offsets offset, offset + size, ... up to the end of the
    text, joined in order; from offset 0 these are the chunks at indices
    0 .. CountChunks - 1.
   */
  function JoinFrom(text: seq<char>, size: nat, offset: nat): seq<char>
    requires size >= 1
  {
    JoinPieces(Fetches(text, size), |text|, size, offset)
  }

  /** Joining the chunks from an offset on gives the text from that character on. */
  lemma JoinFromIsSuffix(text: seq<char>, size: nat, offset: nat)
    requires size >= 1
    ensures JoinFrom(text, size, offset) == text[Min(offset, |text|)..]
  {
    var start: nat -> nat := o => Min(o, |text|);
    forall o: nat | o < |text|
      ensures Fetches(text, size)(o) == Ok(Piece(text[start(o)..start(o + size)]))
    {
      assert Fetches(text, size)(o) == Ok(Piece(MbString.Substr(text, o, size)));
    }
    JoinPiecesIsSuffix(Fetches(text, size), text, start, size, offset);
  }

  /** Joining every chunk in index order reproduces the text exactly. */
  lemma RoundTrip(text: seq<char>, size: nat)
    requires size >= 1
    ensures JoinFrom(text, size, 0) == text
  {
    JoinFromIsSuffix(text, size, 0);
  }
}

=== FILE: utf8.dfy ===
/**
  UTF-8 as defined in RFC 3629: the byte classes, the character-boundary
  search that multi-byte-safe cutting relies on, and well-formedness
  (section 4 of RFC 3629).
 */
module Utf8 {

  /** An octet: the unit of a byte string. */
  newtype uint8 = x: int | 0 <= x < 0x100

  /** The longest UTF-8 sequence for one character, in bytes (section 3 of RFC 3629). */
  const MaxSequenceLength: nat := 4

  /** A byte of the form 10xxxxxx: it continues a character and never starts one. */
  predicate IsContinuation(b: uint8) {
    0x80 <= b < 0xC0
  }

  /** Position p is a cut point: the end of b, or a byte that is not a continuation byte. */
  predicate IsBoundary(b: seq<uint8>, p: nat)
    requires p <= |b|
  {
    p == |b| || !IsContinuation(b[p])
  }

  /** Moves position q to the left, never below `floor`, while it sits on a continuation byte. */
  function MoveLeft(b: seq<uint8>, q: nat, floor: nat): (r: nat)
    requires floor <= q <= |b|
    ensures floor <= r <= q
    ensures r == floor || IsBoundary(b, r)
    decreases q
  {
    if q == floor || IsBoundary(b, q) then q else MoveLeft(b, q - 1, floor)
  }

  /** A cut point does not move. */
  lemma MoveLeftAtBoundary(b: seq<uint8>, q: nat, floor: nat)
    requires floor <= q <= |b| && IsBoundary(b, q)
    ensures MoveLeft(b, q, floor) == q
  {}

  /** MoveLeft stops at the first cut point it meets: every position it passes over is a continuation byte. */
  lemma {:induction false} MoveLeftSkipsOnlyContinuations(b: seq<uint8>, q: nat, floor: nat)
    requires floor <= q <= |b|
    ensures forall k :: MoveLeft(b, q, floor) < k <= q ==> !IsBoundary(b, k)
    decreases q
  {
    if q != floor && !IsBoundary(b, q) {
      MoveLeftSkipsOnlyContinuations(b, q - 1, floor);
    }
  }

  /**
    The first byte of the character that contains position p, looking back at
    most MaxSequenceLength - 1 bytes; the result depends only on b[p-3..p].
   */
  function CharStart(b: seq<uint8>, p: nat): (r: nat)
    requires p <= |b|
    ensures r <= p && p <= r + (MaxSequenceLength - 1)
    ensures p == |b| ==> r == p
  {
    MoveLeft(b, p, if p >= MaxSequenceLength - 1 then p - (MaxSequenceLength - 1) else 0)
  }

  /** At a cut point the character starts right there. */
  lemma CharStartAtBoundary(b: seq<uint8>, p: nat)
    requires p <= |b| && IsBoundary(b, p)
    ensures CharStart(b, p) == p
  {
    MoveLeftAtBoundary(b, p, if p >= MaxSequenceLength - 1 then p - (MaxSequenceLength - 1) else 0);
  }

  /** The sequence length a lead byte announces (RFC 3629, section 4); 0 for a byte no character starts with. */
  function SequenceLength(lead: uint8): nat {
    var v := lead;
    if v <= 0x7F then 1
    else if 0xC2 <= v <= 0xDF then 2
    else if 0xE0 <= v <= 0xEF then 3
    else if 0xF0 <= v <= 0xF4 then 4
    else 0
  }

  /** The first n bytes of b are exactly one character, including the second-byte limits of RFC 3629, section 4. */
  predicate StartsWithChar(b: seq<uint8>, n: nat) {
    && 0 < |b|
    && n == SequenceLength(b[0]) > 0
    && n <= |b|
    && (forall k :: 1 <= k < n ==> IsContinuation(b[k]))
    && (b[0] == 0xE0 ==> 0xA0 <= b[1])
    && (b[0] == 0xED ==> b[1] <= 0x9F)
    && (b[0] == 0xF0 ==> 0x90 <= b[1])
    && (b[0] == 0xF4 ==> b[1] <= 0x8F)
  }

  /** b is well-formed UTF-8: a sequence of whole characters. */
  predicate Valid(b: seq<uint8>)
    decreases |b|
  {
    |b| == 0 || (StartsWithChar(b, SequenceLength(b[0])) && Valid(b[SequenceLength(b[0])..]))
  }

  /** Single-byte characters in front of well-formed UTF-8 keep it well-formed. */
  lemma {:induction false} AsciiPrefixValid(b: seq<uint8>, k: nat)
    requires k <= |b| && Valid(b[k..])
    requires forall i :: 0 <= i < k ==> b[i] <= 0x7F
    ensures Valid(b)
    decreases k
  {
    if k > 0 {
      AsciiPrefixValid(b[1..], k - 1);
      assert b[1..][k - 1..] == b[k..];
      assert SequenceLength(b[0]) == 1;
    } else {
      assert b[k..] == b;
    }
  }

  lemma LeadIsBoundary(b: seq<uint8>)
    requires Valid(b) && 0 < |b|
    ensures IsBoundary(b, 0)
  {}

  /** In well-formed UTF-8 every position has a cut point at most three bytes to its left. */
  lemma {:induction false} NearBoundary(b: seq<uint8>, q: nat) returns (k: nat)
    requires Valid(b) && q <= |b|
    ensures k <= q <= k + (MaxSequenceLength - 1)
    ensures IsBoundary(b, k)
    decreases |b|
  {
    if IsBoundary(b, q) {
      k := q;
    } else {
      var n := SequenceLength(b[0]);
      if q < n {
        LeadIsBoundary(b);
        k := 0;
      } else {
        var k' := NearBoundary(b[n..], q - n);
        k := k' + n;
        if k' < |b[n..]| {
          assert b[n..][k'] == b[k];
        }
      }
    }
  }

  /** In well-formed UTF-8, CharStart finds the first byte of the character containing p. */
  lemma CharStartIsBoundary(b: seq<uint8>, p: nat)
    requires Valid(b) && p <= |b|
    ensures IsBoundary(b, CharStart(b, p))
    ensures forall k :: CharStart(b, p) < k <= p ==> !IsBoundary(b, k)
  {
    var k := NearBoundary(b, p);
    var f := if p >= MaxSequenceLength - 1 then p - (MaxSequenceLength - 1) else 0;
    MoveLeftSkipsOnlyContinuations(b, p, f);
  }

  /** Two floors give the same result when a cut point lies between the higher floor and q. */
  lemma {:induction false} MoveLeftPastBoundary(b: seq<uint8>, q: nat, f1: nat, f2: nat, k: nat)
    requires f1 <= f2 <= k <= q <= |b|
    requires IsBoundary(b, k)
    ensures MoveLeft(b, q, f1) == MoveLeft(b, q, f2)
    decreases q
  {
    if q != k && !IsBoundary(b, q) {
      MoveLeftPastBoundary(b, q - 1, f1, f2, k);
    }
  }

  /**
    Searching inside a window b[s..t] gives the same position as searching the
    whole of b, as long as the floor is inside the window and the window shows
    the byte at q (or b ends where the window ends).
   */
  lemma {:induction false} MoveLeftInWindow(b: seq<uint8>, s: nat, t: nat, q: nat, f: nat)
    requires s <= f <= q <= t <= |b|
    requires q < t || t == |b|
    ensures MoveLeft(b[s..t], q - s, f - s) + s == MoveLeft(b, q, f)
    decreases q
  {
    var w := b[s..t];
    if q == f || IsBoundary(b, q) {
      if q < |b| && q != f {
        assert w[q - s] == b[q];
      }
    } else {
      assert w[q - s] == b[q];
      MoveLeftInWindow(b, s, t, q - 1, f);
    }
  }

  /** CharStart computed in a window that reaches far enough to the left agrees with CharStart on the whole of b. */
  lemma CharStartInWindow(b: seq<uint8>, s: nat, t: nat, p: nat)
    requires s <= p <= t <= |b|
    requires p < t || t == |b|
    requires s == 0 || s + (MaxSequenceLength - 1) <= p
    ensures CharStart(b[s..t], p - s) + s == CharStart(b, p)
  {
    var f := if p >= MaxSequenceLength - 1 then p - (MaxSequenceLength - 1) else 0;
    var fw := if p - s >= MaxSequenceLength - 1 then p - s - (MaxSequenceLength - 1) else 0;
    assert fw == f - s;
    MoveLeftInWindow(b, s, t, p, f);
  }

  /** Cutting well-formed UTF-8 at a cut point leaves two well-formed halves. */
  lemma {:induction false} ValidSplit(b: seq<uint8>, p: nat)
    requires Valid(b) && p <= |b| && IsBoundary(b, p)
    ensures Valid(b[..p]) && Valid(b[p..])
    decreases |b|
  {
    if p == 0 {
      assert b[0..] == b;
    } else {
      var n := SequenceLength(b[0]);
      assert n <= p;
      var tail := b[n..];
      assert IsBoundary(tail, p - n) by {
        if p < |b| {
          assert tail[p - n] == b[p];
        }
      }
      ValidSplit(tail, p - n);
      PrefixValid(b, n, p);
      assert tail[p - n..] == b[p..];
    }
  }

  /** Dropping n bytes of the first p is taking p - n bytes after the first n. */
  lemma TakeDrop(b: seq<uint8>, n: nat, p: nat)
    requires n <= p <= |b|
    ensures b[..p][n..] == b[n..][..p - n]
    ensures b[..p][..n] == b[..n]
  {
    assert b[..p][n..] == b[n..p];
    assert b[n..][..p - n] == b[n..p];
  }

  /** A prefix that keeps the first character and whose remainder is well-formed is well-formed. */
  lemma PrefixValid(b: seq<uint8>, n: nat, p: nat)
    requires 0 < n <= p <= |b| && StartsWithChar(b, n) && Valid(b[n..][..p - n])
    ensures Valid(b[..p])
  {
    var head := b[..p];
    TakeDrop(b, n, p);
    SameFirstChar(b, head, n);
    assert head[0] == b[0];
  }

  /** Whether a sequence starts with a given character depends only on that character's bytes. */
  lemma SameFirstChar(x: seq<uint8>, y: seq<uint8>, n: nat)
    requires StartsWithChar(x, n)
    requires n <= |y| && x[..n] == y[..n]
    ensures StartsWithChar(y, n)
  {
    assert forall k :: 0 <= k < n ==> x[k] == x[..n][k] == y[..n][k] == y[k];
  }

  /** The bytes between two cut points of well-formed UTF-8 are well-formed UTF-8. */
  lemma ValidSlice(b: seq<uint8>, i: nat, j: nat)
    requires Valid(b) && i <= j <= |b|
    requires IsBoundary(b, i) && IsBoundary(b, j)
    ensures Valid(b[i..j])
  {
    ValidSplit(b, j);
    var prefix := b[..j];
    assert IsBoundary(prefix, i) by {
      if i < j {
        assert prefix[i] == b[i];
      }
    }
    ValidSplit(prefix, i);
    assert prefix[i..] == b[i..j];
  }
}
